=== FILE: README.md ===
# aldryn-linkable registry, modelled in Dafny

A model of the search-and-link registry of `aldryn_linkable`. Item types are search providers. They register under an identifier in one process-wide registry. An editor UI asks the registry for objects matching a free-text query. The registry asks every provider in turn and flattens their answers into one list. Each result is displayed through the `Item` contract: identifier, names, description, thumbnail, and link targets.

Modules, following `aldryn_linkable/registry.py`:

- `Outcomes`: `Option` for an attribute an object may or may not have (`hasattr`). `Result` for a call that either returns a value or raises one of the exceptions the code can raise. `FirstPresent` is the fallback chain every accessor follows.
- `Text`: `str.split(' ')` and its inverse `' '.join`. Also the case-insensitive substring test behind a `field__icontains` lookup. ASCII lower-casing stands in for the database collation.
- `OrderedMap`: a Python dict keyed by strings. It is a map plus the keys in first-insertion order. Overwriting a key keeps its position.
- `ModelSearch`: `ModelItemType.search`. It builds the OR of one lookup per (search field, query term) pair, filters the stored records, and slices one record past the page.
- `Items`: the `Item` accessors and `call_if_callable`.
- `ItemTypes`: the `ItemType` accessors with their fallbacks, `get_model`, `get_identifier`, and the `search` of each kind of provider.
- `Registry`: `register` and the aggregate `search`.

Behaviour kept exactly as the code has it, even where the docstrings suggest otherwise (`ItemType.search` promises a "list, tuple or generator of objects" at `registry.py:26`):

- The query is split on single spaces, not on whitespace. So `''` and runs of spaces produce empty terms, and an empty term matches every value.
- The page is not trimmed. `results` holds the extra record fetched to compute `has_more`, so 11 matches on page 1 with 10 per page return 11 records (`ModelSearch.ElevenMatchesOnFirstPage`).
- The aggregate search passes no user and no page, only `q` and `items_per_page=limit`, so each provider's own default page applies (1 for `ItemType` and `ModelItemType`). `limit` bounds each provider, not the total.
- `get_name` is documented as what prevents the same item type from being registered twice (`registry.py:31-34`), but `register` keys by `get_identifier` and never calls it: two types sharing a name under different identifiers both stay registered (`Registry.SameNameBothRegistered`).
- A provider that raises aborts the whole aggregate search with that provider's exception.
- A registered type replaces an earlier one under the same identifier silently.

## Model

| member | source | states |
|---|---|---|
| `Outcomes.FirstPresent` | aldryn_linkable/registry.py:70-79 | the result is the value of the first present attribute of the chain, or the default when none is present |
| `Text.ContainsIffOccurs` | aldryn_linkable/registry.py:92 | the executable substring test holds exactly when the needle occurs at some offset of the value |
| `Text.IContainsIgnoresCase` | aldryn_linkable/registry.py:92 | lower-casing either the value or the term never changes whether the lookup matches |
| `Text.UpperValueMatchesLowerTerm` | aldryn_linkable/registry.py:92 | the value "FOO" matches the term "foo" |
| `Text.EmptyTermMatches` | aldryn_linkable/registry.py:91-92 | the empty term matches every value |
| `Text.Split` | aldryn_linkable/registry.py:91 | `q.split(' ')` always yields at least one piece; `SplitPieces`, `JoinSplit` and `SplitJoin` pin it down as the split on single spaces |
| `Text.IContains` | aldryn_linkable/registry.py:92 | a `field__icontains=term` lookup holds exactly when the lower-cased term occurs at some offset of the lower-cased value |
| `Text.SplitPieces` | aldryn_linkable/registry.py:91 | `q.split(' ')` yields space-free pieces, one more than there are spaces in `q` |
| `Text.JoinSplit` | aldryn_linkable/registry.py:91 | joining the pieces of `q.split(' ')` with single spaces gives back `q` |
| `Text.SplitJoin` | aldryn_linkable/registry.py:91 | splitting a join of space-free pieces gives back those pieces, so the split loses nothing |
| `Text.SplitEmpty` | aldryn_linkable/registry.py:91 | `''.split(' ')` is the single empty term |
| `Text.DoubleSpaceGivesEmptyTerm` | aldryn_linkable/registry.py:91 | a query holding two consecutive spaces yields an empty term at some position after the first |
| `ModelSearch.QueryOf` | aldryn_linkable/registry.py:89-92 | every lookup pairs a search field with a query term; with a field and a term the query is not empty |
| `ModelSearch.QueryOfLength` | aldryn_linkable/registry.py:90-92 | the query holds one lookup per (search field, term) pair |
| `ModelSearch.QueryOfMembers` | aldryn_linkable/registry.py:90-92 | a lookup (f, t) is in the query exactly when f is a search field and t a term |
| `ModelSearch.BuildQuery` | aldryn_linkable/registry.py:89-92 | the nested loops over fields and terms build the field-major list of lookups |
| `ModelSearch.AddRow` | aldryn_linkable/registry.py:91-92 | the inner loop appends one lookup per term for the current field, in term order |
| `ModelSearch.QueryOfStep` | aldryn_linkable/registry.py:90-92 | one more search field appends its row of lookups to the query |
| `ModelSearch.Selected` | aldryn_linkable/registry.py:89-93 | `filter(query)` keeps every record when there is no search field, and otherwise exactly the records some lookup of the query holds for |
| `ModelSearch.AnyHoldsIff` | aldryn_linkable/registry.py:92-93 | the OR of the lookups holds exactly when some lookup of the query holds |
| `ModelSearch.SelectedIff` | aldryn_linkable/registry.py:89-93 | with at least one search field, a record is kept iff some field and some term match: OR across all pairs, never AND |
| `ModelSearch.EmptyQuerySelects` | aldryn_linkable/registry.py:91-93 | the empty query keeps every record that has a value for some search field |
| `ModelSearch.DoubleSpaceSelects` | aldryn_linkable/registry.py:91-93 | a query with two consecutive spaces keeps every such record too |
| `ModelSearch.Filter` | aldryn_linkable/registry.py:93 | the filtered records are exactly the stored records the query keeps, and no more of them than were stored |
| `ModelSearch.FilterAppend` | aldryn_linkable/registry.py:93 | filtering distributes over concatenation, so the stored order is kept |
| `ModelSearch.FilterKeepsAll` | aldryn_linkable/registry.py:93 | when every record is kept, filtering returns the records unchanged |
| `ModelSearch.Slice` | aldryn_linkable/registry.py:98 | the slice with non-negative bounds clamps both bounds to the length; a start at or past the stop gives nothing; element i is element `lo + i` |
| `ModelSearch.SliceBounds` | aldryn_linkable/registry.py:96-97 | the slice spans `items_per_page + 1` positions; it starts at or past 0 for page >= 1 and a non-negative page size; page p+1 starts one page after page p |
| `ModelSearch.Paginate` | aldryn_linkable/registry.py:98-102 | the page holds every matched record from `start` up to the clamped `end`, so `min(end, len) - start` of them, none past the end of the matches; `has_more` iff a record exists past `start + items_per_page`, which is iff the slice holds more than `items_per_page` |
| `ModelSearch.Search` | aldryn_linkable/registry.py:87-102 | raises exactly when a slice bound is negative; otherwise `results` is the filtered records sliced `[(page-1)*n : page*n+1]` and clamped, untrimmed: exactly `min(page*n+1, len) - (page-1)*n` records when the start is in range; `has_more` iff a filtered record exists past the page |
| `ModelSearch.HasMoreIffNextPageNonEmpty` | aldryn_linkable/registry.py:96-101 | `has_more` on page p is set exactly when page p+1 is not empty |
| `ModelSearch.SearchResultsSelected` | aldryn_linkable/registry.py:93-100 | every returned record is a stored record that the query keeps |
| `ModelSearch.OverFetchIsNextPageHead` | aldryn_linkable/registry.py:96-101 | when `has_more` is set, the extra record is the first record of the next page |
| `ModelSearch.ElevenMatchesOnFirstPage` | aldryn_linkable/registry.py:96-102 | 11 matches, page 1, 10 per page: `has_more` is set and all 11 records are returned |
| `ModelSearch.EmptyQueryFirstPage` | aldryn_linkable/registry.py:91-102 | 5 records, query `''`, 10 per page: all 5 records, `has_more` false |
| `Items.CallIfCallable` | aldryn_linkable/registry.py:5-9 | a callable is called and its result returned; any other value is returned as it is |
| `Items.CallIfCallableEvaluates` | aldryn_linkable/registry.py:5-9 | a callable and the value it returns give the same answer |
| `Items.CallIfCallableOnce` | aldryn_linkable/registry.py:5-9 | only one level is evaluated: a callable returning a callable yields the inner callable uncalled |
| `Items.GetIdentifierAsWritten` | aldryn_linkable/registry.py:127-136 | answers only when both the misspelled `identifer` and `identifier` exist; without `identifer` it raises NotImplementedError |
| `Items.GetIdentifier` | aldryn_linkable/registry.py:127-136 | the `identifier` attribute when present, else NotImplementedError |
| `Items.IdentifierTypo` | aldryn_linkable/registry.py:133-134 | whenever the code as written answers, the corrected accessor answers the same; an item with `identifier` but no `identifer` is refused as written and answered when corrected |
| `Items.GetVerboseName` | aldryn_linkable/registry.py:138-147 | `verbose_name` when present, else NotImplementedError |
| `Items.GetShortName` | aldryn_linkable/registry.py:149-156 | `short_name`, else `verbose_name`; fails only when both are missing, and then with the verbose-name error |
| `Items.GetDescription` | aldryn_linkable/registry.py:158-167 | `description`, else the empty string |
| `Items.GetThumbnail` | aldryn_linkable/registry.py:169-177 | `thumbnail`, else the empty string |
| `Items.GetUrlsAsWritten` | aldryn_linkable/registry.py:179-203 | `urls` if set, else `call_if_callable(obj.get_absolute_url)` if the object has it, else a TypeError |
| `Items.GetUrls` | aldryn_linkable/registry.py:179-203 | the same two answers, and NotImplementedError when there is nothing to link to |
| `Items.UrlsErrorKind` | aldryn_linkable/registry.py:199-203 | both versions agree whenever an answer exists; with no `urls` and no `get_absolute_url`, the code as written raises TypeError instead of NotImplementedError |
| `ItemTypes.GetName` | aldryn_linkable/registry.py:30-39 | `name` when present, else NotImplementedError |
| `ItemTypes.GetModel` | aldryn_linkable/registry.py:104-107 | the model when set; NotImplementedError when it is None; no such method on a plain item type |
| `ItemTypes.GetIdentifierAsWritten` | aldryn_linkable/registry.py:109-110 | a model-backed type answers the model's module path, a dot and the name of the model's metaclass, and fails as `get_model` fails; a plain type answers only through its own override |
| `ItemTypes.GetIdentifier` | aldryn_linkable/registry.py:109-110 | the same, naming the model's own class instead of its metaclass |
| `ItemTypes.SameModuleIdentifiers` | aldryn_linkable/registry.py:109-110 | as written, two models from the same module give one identifier; naming the model itself gives differently named models different identifiers |
| `ItemTypes.CustomIdentifierUnchanged` | aldryn_linkable/registry.py:109-110 | the correction touches only `ModelItemType.get_identifier`: both versions agree on plain item types, which answer through their own override |
| `ItemTypes.GetVerboseName` | aldryn_linkable/registry.py:112-113 | a model-backed type answers the model's verbose name, ignoring the attribute; a plain type answers `verbose_name` or raises NotImplementedError |
| `ItemTypes.GetShortName` | aldryn_linkable/registry.py:50-57 | `short_name`, else whatever `get_verbose_name` gives for that kind of type |
| `ItemTypes.GetThumbnail` | aldryn_linkable/registry.py:59-68 | `thumbnail`, else the empty string |
| `ItemTypes.GetDefaultItemThumbnail` | aldryn_linkable/registry.py:70-79 | `default_item_thumbnail`, else `thumbnail`, else the empty string |
| `ItemTypes.Search` | aldryn_linkable/registry.py:19-28 | the base search raises NotImplementedError; an override's answer is the override's own list for the same arguments; a model-backed type answers the default search's page dict, or AttributeError when `model` is None |
| `ItemTypes.MissingModel` | aldryn_linkable/registry.py:87-113 | on a model-backed type, `get_model`, `get_identifier`, `get_verbose_name` and (for valid pages) `search` fail exactly when `model` is None; the three accessors then raise "please set a model", `search` an AttributeError |
| `ItemTypes.CustomSearchIsOverride` | aldryn_linkable/registry.py:19-28 | a plain type answers `search` iff it overrides it, with the override's list, and has no `get_model` |
| `OrderedMap.Values` | aldryn_linkable/registry.py:214 | the values in iteration order, one per listed key |
| `OrderedMap.Put` | aldryn_linkable/registry.py:210 | after the store the key maps to the value, every other key is unchanged, and the size grows by one only for a new key |
| `OrderedMap.PutValues` | aldryn_linkable/registry.py:210 | a new key is iterated last; an existing key keeps its position and only its value changes |
| `OrderedMap.SizeIsEntryCount` | aldryn_linkable/registry.py:207 | the number of entries of the dict equals the number of keys in iteration order |
| `Registry.Empty` | aldryn_linkable/registry.py:207 | the registry starts with no type registered |
| `Registry.Lookup` | aldryn_linkable/registry.py:207-210 | an identifier is registered exactly when the registry iterates over it |
| `Registry.Register` | aldryn_linkable/registry.py:209-210 | looking up the new type's identifier gives that type; every other identifier is unchanged; registering fails only when `get_identifier` fails |
| `Registry.RegisterSameIdentifierTwice` | aldryn_linkable/registry.py:209-210 | a second type under a taken identifier replaces the first in place; the number of entries is unchanged |
| `Registry.RegisterNewGoesLast` | aldryn_linkable/registry.py:209-214 | a type under a new identifier is searched after every type already registered |
| `Registry.Hits` | aldryn_linkable/registry.py:215-216 | iterating an answer yields its items, or the records of its `results`, in order |
| `Registry.HitsAsWritten` | aldryn_linkable/registry.py:215-216 | iterating the dict a model-backed type returns yields its two keys |
| `Registry.RegisterAsWritten` | aldryn_linkable/registry.py:209-210 | registering under the as-written identifier: the type is found under it, nothing else changes, and the count grows only for a new identifier |
| `Registry.SameModuleModelsCollide` | aldryn_linkable/registry.py:109-110 | as written, a second model-backed type whose model shares the first's module replaces it, leaving the count unchanged; keyed by the model's own name, both stay registered |
| `Registry.Ask` | aldryn_linkable/registry.py:215 | a plain type answers iff it overrides `search`; for `limit >= 0` a model-backed type answers iff it has a model, with the first page `[0:limit+1]` of its filtered records |
| `Registry.Answers` | aldryn_linkable/registry.py:214-215 | each provider is asked once, in order, with its default page 1 and `items_per_page=limit` |
| `Registry.SameNameBothRegistered` | aldryn_linkable/registry.py:209-210 | two types with the same `name` under different identifiers both stay registered: `get_name` plays no part in registration |
| `Registry.Collect` | aldryn_linkable/registry.py:212-217 | the search succeeds iff every provider answers; otherwise it raises the exception of the first provider that raised |
| `Registry.Search` | aldryn_linkable/registry.py:212-217 | the aggregate search succeeds iff every registered provider answers; a failure is the exception of the first provider that raised, all earlier ones having answered; a success holds as many objects as all answers together |
| `Registry.SearchOutcome` | aldryn_linkable/registry.py:212-217 | over any run of providers: the first raiser's exception, or as many objects as all answers yield |
| `Registry.SearchEmpty` | aldryn_linkable/registry.py:207-217 | with nothing registered the search finds nothing |
| `Registry.RegisterThenSearch` | aldryn_linkable/registry.py:209-217 | registering a type under a new identifier appends that type's hits to what the registry found before |
| `Registry.AnswersAppend` | aldryn_linkable/registry.py:214-215 | one more provider adds one more answer at the end |
| `Registry.SearchAsWritten` | aldryn_linkable/registry.py:212-217 | the loop as written fails on exactly the same registries as the corrected loop |
| `Registry.CollectAppend` | aldryn_linkable/registry.py:214-216 | collecting two runs of providers gives the first run's hits followed by the second's: concatenation in provider order |
| `Registry.CollectSingle` | aldryn_linkable/registry.py:215-216 | one provider contributes exactly what iterating its answer yields |
| `Registry.CollectStep` | aldryn_linkable/registry.py:214-216 | each further provider appends its hits at the end |
| `Registry.CollectFailure` | aldryn_linkable/registry.py:215 | a provider that raises after earlier ones answered makes the whole search raise its exception |
| `Registry.CollectLength` | aldryn_linkable/registry.py:212-217 | the aggregate length is the sum of the per-provider lengths: no global cap, no deduplication |
| `Registry.CollectMembers` | aldryn_linkable/registry.py:214-216 | every collected object comes from some provider's answer |
| `Registry.CollectBound` | aldryn_linkable/registry.py:212-217 | when no provider yields more than k objects, the aggregate holds at most k per provider |
| `Registry.TwoProvidersOfThree` | aldryn_linkable/registry.py:212-217 | two model-backed providers with three matching records each give six results for any limit of at least 2 |
| `Registry.TwoProvidersOfThreeLimitOne` | aldryn_linkable/registry.py:96-98 | with limit 1 the same providers give four results, two each, because of the record fetched past the page |
| `Registry.CollectTwo` | aldryn_linkable/registry.py:214-216 | two answering providers contribute their hits one after the other |
| `Registry.AnswerCount` | aldryn_linkable/registry.py:96-98 | a provider with a model answers `min(limit + 1, matches)` records |
| `Registry.ModelProviderBound` | aldryn_linkable/registry.py:215 | a model-backed provider asked with `limit` answers a page of at most `limit + 1` records |
| `Registry.ModelProviderHits` | aldryn_linkable/registry.py:87-102 | everything a provider that has a model yields is one of its stored records that its search fields select |
| `Registry.ModelSearchBound` | aldryn_linkable/registry.py:212-217 | over model-backed providers, the aggregate holds at most `limit + 1` records per provider |
| `Registry.ModelSearchRecords` | aldryn_linkable/registry.py:212-217 | over model-backed providers, every aggregate hit is a stored record of some provider's model that this provider's search fields select |
| `Registry.DefaultLimitPerProvider` | aldryn_linkable/registry.py:212 | with the default `limit=100`, a provider that has a model contributes at most 101 records |
| `Registry.AsWrittenYieldsKeys` | aldryn_linkable/registry.py:214-216 | as written, over model-backed providers the aggregate holds only dict keys, "results" among them, and no record |
| `Registry.CollectKeys` | aldryn_linkable/registry.py:215-216 | iterating dict answers as written collects keys only, "results" first |
| `Registry.SearchLoop` | aldryn_linkable/registry.py:212-217 | the loop that appends each provider's hits in turn computes the aggregate search |

## Left out

- Django ORM semantics are modelled only as far as the default search needs them. A `field__icontains` lookup is ASCII case folding plus a substring test. A record without a value for a field (NULL) matches no lookup.
- An empty `search_fields` leaves the query as the empty `Q()`. Here that keeps every record, which is how Django treats an empty `Q()`. This is an assumption about Django, not something `registry.py` states.
- A query-set slice with a negative bound is an error (`NegativeIndexing`), because Django query sets refuse negative indexing. This happens for page < 1, for instance. Django's exact exception class is not modelled.
- `order_by` is not modelled: the stored records are taken in the order the store returns them. The database decides how ties are ordered.
- `ItemTypes.GetIdentifier`: the model's `__module__`, `__name__` and metaclass name are opaque strings; they are not computed from a class definition.
- `ItemTypes.GetVerboseName`: the title-cased `_meta.verbose_name` of the model is an opaque string.
- `ItemTypes.Search`: a `search` override is a total function of (q, page, items_per_page). An override that raises, or that returns anything other than a list of items, is not modelled.
- `Registry.Ask`: every provider is asked for page 1. An override of `search` is assumed to keep the documented default `page=1`; one that declares another default is not modelled.
- `ItemTypes.Impl`: overrides of `search` and `get_identifier` are modelled only on direct `ItemType` subclasses. A `ModelItemType` subclass that overrides either method is not representable: a model-backed type always uses the default search and the model's identifier.
- `Items.CallIfCallable`: a callable is a total function, so `call_if_callable` never raises here. A `get_absolute_url()` that raises, whose exception `call_if_callable` would pass on, is not modelled.
- Subclasses overriding methods are modelled only for `search` and `get_identifier`, and only on `ItemType` itself, not on `Item` or `ModelItemType`. Other overrides are not modelled. Attributes are modelled.
- The registry is a value that `Register` returns updated. In the code `_registry` is a class attribute shared by every `Registry()` instance. That sharing is not modelled: the model has one registry value per call chain.
- The `user` parameter of `search` is never inspected, and the aggregate search never passes one. It is left out.
- The unused class attribute `item_type_id`, thumbnail resizing, and the tuple, list or generator difference are left out. Answers are sequences.
- Dict iteration order is insertion order, as in Python 3.7+. Under Python 2, for which the module was written, it is arbitrary.
- Concurrency is left out: registration and search are sequential, as they are during module initialisation and request handling.
- `aldryn_linkable/urls.py` (HTTP listing and search views), `aldryn_linkable/admin.py`, and the two example integrations under `aldryn_linkable/contrib/` are not part of this model.

## Findings

| source | as written | input that shows it | evidently intended | confidence | as-written member | corrected member |
|---|---|---|---|---|---|---|
| aldryn_linkable/registry.py:214-216 | the loop iterates the dict `{'results': ..., 'has_more': ...}` that `ModelItemType.search` returns, so it collects the dict's keys | one registered model-backed type whose model has matching records: the aggregate is `['results', 'has_more']` and holds no record | iterate the `results` of the answer | high; not executed | `Registry.SearchAsWritten`, `Registry.AsWrittenYieldsKeys` | `Registry.Search`, `Registry.ModelSearchRecords` |
| aldryn_linkable/registry.py:109-110 | `get_identifier` uses `get_model().__class__.__name__`; the model is a class, so this is the name of its metaclass (`ModelBase` for a Django model) | two model-backed types whose models `Article` and `Author` are both defined in `app.models`: both register under `app.models.ModelBase`, and the second silently replaces the first | the model's own name, `get_model().__name__` | high; not executed | `ItemTypes.GetIdentifierAsWritten`, `Registry.RegisterAsWritten`, `Registry.SameModuleModelsCollide` | `ItemTypes.GetIdentifier`, `ItemTypes.SameModuleIdentifiers`, `Registry.Register` |
| aldryn_linkable/registry.py:133-134 | `get_identifier` tests for the misspelled attribute `identifer` but returns `identifier` | an item with `identifier = 'x'` and no `identifer`: raises NotImplementedError | test `identifier` | high; not executed | `Items.GetIdentifierAsWritten`, `Items.IdentifierTypo` | `Items.GetIdentifier` |
| aldryn_linkable/registry.py:203 | `raise NotImplemented(...)` calls the `NotImplemented` constant, which is not callable, so a TypeError is raised | an item with no `urls` whose object has no `get_absolute_url` | `raise NotImplementedError(...)` | high; not executed | `Items.GetUrlsAsWritten`, `Items.UrlsErrorKind` | `Items.GetUrls` |

=== FILE: item_types.dfy ===
/** The `ItemType` contract and its model-backed specialisation
    `ModelItemType`: display metadata with fallbacks, the identifier a type
    is registered under, and the `search` each kind of provider performs. */
module ItemTypes {
  import opened Outcomes
  import Items
  import ModelSearch

  /** The backing model class, as far as the item type looks at it: its
      module path (`__module__`), its own name (`__name__`), the name of the
      class it is an instance of (`__class__.__name__`, the metaclass;
      `ModelBase` for a Django model), its title-cased verbose name, and its
      stored records in the order the store returns them. */
  datatype ModelClass = ModelClass(
    modulePath: string,
    className: string,
    metaclassName: string,
    verboseTitle: string,
    objects: seq<ModelSearch.Record>)

  /** A `search` override: (q, page, items_per_page) to a list of items. */
  type SearchFn = (string, int, int) -> seq<Items.Item>

  /** How a provider implements the abstract parts of the contract. */
  datatype Impl =
    /** A direct `ItemType` subclass, with the `get_identifier` and `search`
        it overrides, if any. */
    | Custom(identifier: Option<string>, search: Option<SearchFn>)
    /** A `ModelItemType` subclass with its `model` and `search_fields`. */
    | ModelBacked(model: Option<ModelClass>, searchFields: seq<string>)

  /** An item type and the class attributes it may carry. */
  datatype ItemType = ItemType(
    name: Option<string>,
    verboseName: Option<string>,
    shortName: Option<string>,
    thumbnail: Option<string>,
    defaultItemThumbnail: Option<string>,
    impl: Impl)

  const NoNameMessage := "please provide a unique name"
  const NoVerboseNameMessage := "either add a class variable `verbose_name` or override get_verbose_name"
  const NoSearchMessage := "please implement search for ItemType"
  const NoModelMessage := "please set a model"

  function GetName(t: ItemType): (r: Result<string>)
    ensures r.Ok? <==> t.name.Some?
    ensures r.Ok? ==> r.value == t.name.value
    ensures r.Err? ==> r.error == NotImplementedError(NoNameMessage)
  {
    if t.name.Some? then Ok(t.name.value) else Err(NotImplementedError(NoNameMessage))
  }

  /** `get_model`, which only a `ModelItemType` has. */
  function GetModel(t: ItemType): (r: Result<ModelClass>)
    ensures r.Ok? <==> t.impl.ModelBacked? && t.impl.model.Some?
    ensures r.Ok? ==> r.value == t.impl.model.value
    ensures t.impl.ModelBacked? && t.impl.model.None? ==> r == Err(NotImplementedError(NoModelMessage))
    ensures t.impl.Custom? ==> r == Err(AttributeError("get_model"))
  {
    match t.impl
    case Custom(_, _) => Err(AttributeError("get_model"))
    case ModelBacked(model, _) =>
      if model.Some? then Ok(model.value) else Err(NotImplementedError(NoModelMessage))
  }

  /** `get_identifier` as written: the override of a custom type (the base
      class has none), or the backing model's module path and the name of
      the model's metaclass joined by a dot. */
  function GetIdentifierAsWritten(t: ItemType): (r: Result<string>)
    ensures t.impl.ModelBacked? ==> (r.Ok? <==> GetModel(t).Ok?)
    ensures t.impl.ModelBacked? && r.Ok? ==>
              r.value == GetModel(t).value.modulePath + "." + GetModel(t).value.metaclassName
    ensures t.impl.ModelBacked? && r.Err? ==> r.error == NotImplementedError(NoModelMessage)
    ensures t.impl.Custom? ==> (r.Ok? <==> t.impl.identifier.Some?)
    ensures t.impl.Custom? && r.Ok? ==> r.value == t.impl.identifier.value
  {
    match t.impl
    case Custom(identifier, _) =>
      if identifier.Some? then Ok(identifier.value) else Err(AttributeError("get_identifier"))
    case ModelBacked(_, _) =>
      match GetModel(t)
      case Ok(m) => Ok(m.modulePath + "." + m.metaclassName)
      case Err(e) => Err(e)
  }

  /** `get_identifier` naming the model itself: its module path and class
      name joined by a dot. */
  function GetIdentifier(t: ItemType): (r: Result<string>)
    ensures t.impl.ModelBacked? ==> (r.Ok? <==> GetModel(t).Ok?)
    ensures t.impl.ModelBacked? && r.Ok? ==>
              r.value == GetModel(t).value.modulePath + "." + GetModel(t).value.className
    ensures t.impl.ModelBacked? && r.Err? ==> r.error == NotImplementedError(NoModelMessage)
    ensures t.impl.Custom? ==> (r.Ok? <==> t.impl.identifier.Some?)
    ensures t.impl.Custom? && r.Ok? ==> r.value == t.impl.identifier.value
  {
    match t.impl
    case Custom(identifier, _) =>
      if identifier.Some? then Ok(identifier.value) else Err(AttributeError("get_identifier"))
    case ModelBacked(_, _) =>
      match GetModel(t)
      case Ok(m) => Ok(m.modulePath + "." + m.className)
      case Err(e) => Err(e)
  }

  /** `get_verbose_name`: the class attribute on a custom type; on a
      model-backed type, the model's verbose name (the attribute is ignored). */
  function GetVerboseName(t: ItemType): (r: Result<string>)
    ensures t.impl.Custom? ==> (r.Ok? <==> t.verboseName.Some?)
    ensures t.impl.Custom? && r.Ok? ==> r.value == t.verboseName.value
    ensures t.impl.Custom? && r.Err? ==> r.error == NotImplementedError(NoVerboseNameMessage)
    ensures t.impl.ModelBacked? ==> (r.Ok? <==> GetModel(t).Ok?)
    ensures t.impl.ModelBacked? && r.Ok? ==> r.value == GetModel(t).value.verboseTitle
  {
    match t.impl
    case Custom(_, _) =>
      if t.verboseName.Some? then Ok(t.verboseName.value)
      else Err(NotImplementedError(NoVerboseNameMessage))
    case ModelBacked(_, _) =>
      match GetModel(t)
      case Ok(m) => Ok(m.verboseTitle)
      case Err(e) => Err(e)
  }

  /** `short_name`, else whatever `get_verbose_name` gives for this kind. */
  function GetShortName(t: ItemType): (r: Result<string>)
    ensures r.Ok? <==> t.shortName.Some? || GetVerboseName(t).Ok?
    ensures t.shortName.Some? ==> r == Ok(t.shortName.value)
    ensures t.shortName.None? ==> r == GetVerboseName(t)
  {
    if t.shortName.Some? then Ok(t.shortName.value) else GetVerboseName(t)
  }

  /** `thumbnail`, else the empty string. */
  function GetThumbnail(t: ItemType): (r: string)
    ensures r == FirstPresent([t.thumbnail], "")
  {
    if t.thumbnail.Some? then t.thumbnail.value else ""
  }

  /** `default_item_thumbnail`, else `get_thumbnail()`. */
  function GetDefaultItemThumbnail(t: ItemType): (r: string)
    ensures r == FirstPresent([t.defaultItemThumbnail, t.thumbnail], "")
  {
    if t.defaultItemThumbnail.Some? then t.defaultItemThumbnail.value else GetThumbnail(t)
  }

  /** What a provider's `search` returns: the list the contract documents,
      or the dictionary `ModelItemType.search` builds. */
  datatype SearchOutput =
    | ItemList(items: seq<Items.Item>)
    | ResultDict(page: ModelSearch.Page)

  /** `item_type.search(q, page=page, items_per_page=perPage)`. The base
      class raises; a model-backed type reads `self.model.objects` without
      going through `get_model`, so a missing model surfaces as an
      attribute error on `None`. */
  function Search(t: ItemType, q: string, page: int, perPage: int): (r: Result<SearchOutput>)
    ensures t.impl.Custom? && t.impl.search.None? ==> r == Err(NotImplementedError(NoSearchMessage))
    ensures t.impl.Custom? && t.impl.search.Some? ==> r == Ok(ItemList(t.impl.search.value(q, page, perPage)))
    ensures t.impl.ModelBacked? && t.impl.model.None? ==> r == Err(AttributeError("objects"))
    ensures t.impl.ModelBacked? && t.impl.model.Some? ==>
              var m := t.impl.model.value;
              var page' := ModelSearch.Search(m.objects, t.impl.searchFields, q, page, perPage);
              (r.Ok? <==> page'.Ok?)
              && (r.Ok? ==> r == Ok(ResultDict(page'.value)))
              && (r.Err? ==> r.error == page'.error)
  {
    match t.impl
    case Custom(_, search) =>
      if search.Some? then Ok(ItemList(search.value(q, page, perPage)))
      else Err(NotImplementedError(NoSearchMessage))
    case ModelBacked(model, fields) =>
      if model.None? then Err(AttributeError("objects"))
      else
        match ModelSearch.Search(model.value.objects, fields, q, page, perPage)
        case Ok(p) => Ok(ResultDict(p))
        case Err(e) => Err(e)
  }

  /** On a model-backed type every model-dependent member fails exactly when
      no model is set, and they fail differently: the accessors go through
      `get_model` and raise its "please set a model" error, while `search`
      reads `self.model.objects` directly and hits an attribute error. */
  lemma MissingModel(t: ItemType, q: string, page: int, perPage: int)
    requires t.impl.ModelBacked?
    ensures GetModel(t).Err? <==> t.impl.model.None?
    ensures GetIdentifier(t).Err? <==> t.impl.model.None?
    ensures GetVerboseName(t).Err? <==> t.impl.model.None?
    ensures page >= 1 && perPage >= 0 ==> (Search(t, q, page, perPage).Err? <==> t.impl.model.None?)
    ensures t.impl.model.None? ==>
              && GetModel(t) == Err(NotImplementedError(NoModelMessage))
              && GetIdentifier(t) == Err(NotImplementedError(NoModelMessage))
              && GetVerboseName(t) == Err(NotImplementedError(NoModelMessage))
              && Search(t, q, page, perPage) == Err(AttributeError("objects"))
  {
  }

  /** A plain type answers `search` only through its override, and that
      answer is whatever the override returns for the same arguments; the
      model-backed search is never consulted. */
  lemma CustomSearchIsOverride(t: ItemType, q: string, page: int, perPage: int)
    requires t.impl.Custom?
    ensures Search(t, q, page, perPage).Ok? <==> t.impl.search.Some?
    ensures Search(t, q, page, perPage).Ok? ==>
              Search(t, q, page, perPage).value.items == t.impl.search.value(q, page, perPage)
    ensures GetModel(t) == Err(AttributeError("get_model"))
  {
  }

  /** As written, two models defined in the same module share one
      identifier, since both are instances of the same metaclass; naming the
      model itself tells two differently named models apart. Custom types
      are unaffected. */
  lemma SameModuleIdentifiers(t1: ItemType, t2: ItemType)
    requires t1.impl.ModelBacked? && t1.impl.model.Some?
    requires t2.impl.ModelBacked? && t2.impl.model.Some?
    requires t1.impl.model.value.modulePath == t2.impl.model.value.modulePath
    requires t1.impl.model.value.metaclassName == t2.impl.model.value.metaclassName
    ensures GetIdentifierAsWritten(t1).Ok? && GetIdentifierAsWritten(t1) == GetIdentifierAsWritten(t2)
    ensures GetIdentifier(t1).Ok? && GetIdentifier(t2).Ok?
    ensures t1.impl.model.value.className != t2.impl.model.value.className ==>
              GetIdentifier(t1).value != GetIdentifier(t2).value
  {
    var prefix := t1.impl.model.value.modulePath + ".";
    var c1, c2 := t1.impl.model.value.className, t2.impl.model.value.className;
    assert GetIdentifier(t1).value == prefix + c1;
    assert GetIdentifier(t2).value == prefix + c2;
    assert (prefix + c1)[|prefix|..] == c1;
    assert (prefix + c2)[|prefix|..] == c2;
  }

  /** Both versions agree on custom types. */
  lemma CustomIdentifierUnchanged(t: ItemType)
    requires t.impl.Custom?
    ensures GetIdentifierAsWritten(t) == GetIdentifier(t)
  {
  }
}

=== FILE: items.dfy ===
/** The `Item` contract: a read-only view over one search result. Optional
    class attributes become `Option` fields; each accessor either returns a
    value or raises, as a `Result`. */
module Items {
  import opened Outcomes

  /** An attribute that holds either a value or a zero-argument callable. */
  datatype MaybeCallable<T> = Plain(value: T) | Callable(call: () -> T)

  /** `call_if_callable(fnc)`: call a callable once, pass any other value
      through unchanged. */
  function CallIfCallable<T>(fnc: MaybeCallable<T>): (r: T)
    ensures fnc.Plain? ==> r == fnc.value
    ensures fnc.Callable? ==> r == fnc.call()
  {
    match fnc
    case Plain(v) => v
    case Callable(f) => f()
  }

  /** Only one level is evaluated: a callable whose result is itself a
      callable yields that inner callable, uncalled. */
  lemma CallIfCallableOnce<T>(inner: () -> T)
    ensures CallIfCallable(Callable(() => Callable(inner))) == Callable(inner)
    ensures CallIfCallable(Plain(Callable(inner))) == Callable(inner)
  {
  }

  /** A callable and the value it returns are interchangeable:
      `call_if_callable` gives the same answer for both. */
  lemma CallIfCallableEvaluates<T>(f: () -> T)
    ensures CallIfCallable(Callable(f)) == CallIfCallable(Plain(f()))
  {
  }

  /** One link target: machine name, human readable name, URL. */
  datatype Link = Link(name: string, verboseName: string, url: string)

  /** The wrapped object, seen only through `get_absolute_url`, which may be
      missing, a plain attribute, or a method. */
  datatype Obj = Obj(getAbsoluteUrl: Option<MaybeCallable<string>>)

  /** An `Item` and the attributes it may carry. `hasIdentifer` records
      whether the misspelled attribute `identifer` exists. */
  datatype Item = Item(
    obj: Obj,
    identifier: Option<string>,
    hasIdentifer: bool,
    verboseName: Option<string>,
    shortName: Option<string>,
    description: Option<string>,
    thumbnail: Option<string>,
    urls: Option<seq<Link>>)

  /** What `get_urls` hands back: the `urls` list, or whatever the wrapped
      object's `get_absolute_url` gives (a single URL, not a list of links). */
  datatype Urls = Links(links: seq<Link>) | AbsoluteUrl(url: string)

  const NoIdentifierMessage := "please provide a identifer attribute or override identifer()"
  const NoVerboseNameMessage := "please provide a verbose_name attribute or override verbose_name()"
  const NoUrlsMessage := "get_urls is not implemented, so url selection is not possible"
  /** What `raise NotImplemented(...)` actually raises. */
  const NotCallableMessage := "'NotImplementedType' object is not callable"

  /** `get_identifier` as written: it tests for `identifer` but reads
      `identifier`. */
  function GetIdentifierAsWritten(item: Item): (r: Result<string>)
    ensures r.Ok? <==> item.hasIdentifer && item.identifier.Some?
    ensures r.Ok? ==> r.value == item.identifier.value
    ensures item.hasIdentifer && item.identifier.None? ==> r == Err(AttributeError("identifier"))
    ensures !item.hasIdentifer ==> r == Err(NotImplementedError(NoIdentifierMessage))
  {
    if item.hasIdentifer then
      if item.identifier.Some? then Ok(item.identifier.value) else Err(AttributeError("identifier"))
    else Err(NotImplementedError(NoIdentifierMessage))
  }

  /** `get_identifier` testing the attribute it reads. */
  function GetIdentifier(item: Item): (r: Result<string>)
    ensures r.Ok? <==> item.identifier.Some?
    ensures r.Ok? ==> r.value == item.identifier.value
    ensures r.Err? ==> r.error == NotImplementedError(NoIdentifierMessage)
  {
    if item.identifier.Some? then Ok(item.identifier.value)
    else Err(NotImplementedError(NoIdentifierMessage))
  }

  /** The misspelling only ever loses answers: whenever the code as written
      answers, the corrected accessor gives the same answer, and an item with
      an `identifier` but no `identifer` is refused. */
  lemma IdentifierTypo(item: Item)
    ensures GetIdentifierAsWritten(item).Ok? ==> GetIdentifier(item) == GetIdentifierAsWritten(item)
    ensures item.identifier.Some? && !item.hasIdentifer ==>
              GetIdentifierAsWritten(item).Err? && GetIdentifier(item) == Ok(item.identifier.value)
  {
  }

  function GetVerboseName(item: Item): (r: Result<string>)
    ensures r.Ok? <==> item.verboseName.Some?
    ensures r.Ok? ==> r.value == item.verboseName.value
    ensures r.Err? ==> r.error == NotImplementedError(NoVerboseNameMessage)
  {
    if item.verboseName.Some? then Ok(item.verboseName.value)
    else Err(NotImplementedError(NoVerboseNameMessage))
  }

  /** `short_name`, else `get_verbose_name()`. */
  function GetShortName(item: Item): (r: Result<string>)
    ensures r.Ok? <==> item.shortName.Some? || item.verboseName.Some?
    ensures r.Ok? ==> r.value == FirstPresent([item.shortName, item.verboseName], "")
    ensures r.Err? ==> r == GetVerboseName(item)
  {
    if item.shortName.Some? then Ok(item.shortName.value) else GetVerboseName(item)
  }

  /** `description`, else the empty string. */
  function GetDescription(item: Item): (r: string)
    ensures r == FirstPresent([item.description], "")
  {
    if item.description.Some? then item.description.value else ""
  }

  /** `thumbnail`, else the empty string. */
  function GetThumbnail(item: Item): (r: string)
    ensures r == FirstPresent([item.thumbnail], "")
  {
    if item.thumbnail.Some? then item.thumbnail.value else ""
  }

  /** `get_urls` as written: the last branch calls the `NotImplemented`
      constant, which raises a `TypeError`. */
  function GetUrlsAsWritten(item: Item): (r: Result<Urls>)
    ensures r.Ok? <==> item.urls.Some? || item.obj.getAbsoluteUrl.Some?
    ensures item.urls.Some? ==> r == Ok(Links(item.urls.value))
    ensures item.urls.None? && item.obj.getAbsoluteUrl.Some? ==>
              r == Ok(AbsoluteUrl(CallIfCallable(item.obj.getAbsoluteUrl.value)))
    ensures r.Err? ==> r.error == TypeError(NotCallableMessage)
  {
    if item.urls.Some? then Ok(Links(item.urls.value))
    else if item.obj.getAbsoluteUrl.Some? then Ok(AbsoluteUrl(CallIfCallable(item.obj.getAbsoluteUrl.value)))
    else Err(TypeError(NotCallableMessage))
  }

  /** `get_urls` raising the "not implemented" error its message describes. */
  function GetUrls(item: Item): (r: Result<Urls>)
    ensures r.Ok? <==> item.urls.Some? || item.obj.getAbsoluteUrl.Some?
    ensures item.urls.Some? ==> r == Ok(Links(item.urls.value))
    ensures item.urls.None? && item.obj.getAbsoluteUrl.Some? ==>
              r == Ok(AbsoluteUrl(CallIfCallable(item.obj.getAbsoluteUrl.value)))
    ensures r.Err? ==> r.error == NotImplementedError(NoUrlsMessage)
  {
    if item.urls.Some? then Ok(Links(item.urls.value))
    else if item.obj.getAbsoluteUrl.Some? then Ok(AbsoluteUrl(CallIfCallable(item.obj.getAbsoluteUrl.value)))
    else Err(NotImplementedError(NoUrlsMessage))
  }

  /** The two `get_urls` agree on every item that has something to link to;
      on an item that has nothing, the code as written raises a `TypeError`
      instead of the intended "not implemented" error. */
  lemma UrlsErrorKind(item: Item)
    ensures GetUrlsAsWritten(item).Ok? ==> GetUrlsAsWritten(item) == GetUrls(item)
    ensures GetUrlsAsWritten(item).Err? <==> GetUrls(item).Err?
    ensures item.urls.None? && item.obj.getAbsoluteUrl.None? ==>
              GetUrlsAsWritten(item).error.TypeError? && GetUrls(item).error.NotImplementedError?
  {
  }
}

=== FILE: model_search.dfy ===
/** The default search of a model-backed item type: an OR of
    `field__icontains=term` lookups over every (search field, query term)
    pair, then a slice that fetches one record past the page. */
module ModelSearch {
  import opened Outcomes
  import opened Text

  /** A stored record of the backing model: field name to text value. A field
      the record has no value for reads as NULL and matches no lookup. */
  type Record = map<string, string>

  /** One `Q(**{field + '__icontains': term})`. */
  datatype Lookup = IContainsLookup(field: string, term: string)

  predicate LookupHolds(rec: Record, l: Lookup) {
    l.field in rec && IContains(rec[l.field], l.term)
  }

  // ---------------------------------------------------------------------
  // Building the query

  /** The lookups for one search field, one per term, in term order. */
  function FieldRow(field: string, terms: seq<string>): (row: seq<Lookup>)
    ensures |row| == |terms|
    ensures forall j :: 0 <= j < |terms| ==> row[j] == IContainsLookup(field, terms[j])
  {
    seq(|terms|, j requires 0 <= j < |terms| => IContainsLookup(field, terms[j]))
  }

  /** The lookups OR-ed together, field-major as the nested loops add them. */
  function QueryOf(fields: seq<string>, terms: seq<string>): (query: seq<Lookup>)
    ensures forall l :: l in query ==> l.field in fields && l.term in terms
    ensures |fields| > 0 && |terms| > 0 ==> |query| > 0
    decreases |fields|
  {
    if |fields| == 0 then [] else FieldRow(fields[0], terms) + QueryOf(fields[1..], terms)
  }

  lemma {:induction false} QueryOfAppend(fields: seq<string>, f: string, terms: seq<string>)
    ensures QueryOf(fields + [f], terms) == QueryOf(fields, terms) + FieldRow(f, terms)
    decreases |fields|
  {
    if |fields| == 0 {
      assert QueryOf([f], terms) == FieldRow(f, terms) + QueryOf([], terms);
    } else {
      assert (fields + [f])[1..] == fields[1..] + [f];
      QueryOfAppend(fields[1..], f, terms);
    }
  }

  /** One lookup per (field, term) pair. */
  lemma {:induction false} QueryOfLength(fields: seq<string>, terms: seq<string>)
    ensures |QueryOf(fields, terms)| == |fields| * |terms|
    decreases |fields|
  {
    if |fields| > 0 {
      QueryOfLength(fields[1..], terms);
      var rest := QueryOf(fields[1..], terms);
      assert |QueryOf(fields, terms)| == |terms| + |rest|;
      assert |fields| * |terms| == |terms| + (|fields| - 1) * |terms|;
    }
  }

  /** The lookups are exactly the (field, term) pairs. */
  lemma {:induction false} QueryOfMembers(fields: seq<string>, terms: seq<string>)
    ensures forall f, t :: IContainsLookup(f, t) in QueryOf(fields, terms) <==> f in fields && t in terms
    decreases |fields|
  {
    if |fields| > 0 {
      QueryOfMembers(fields[1..], terms);
      var row := FieldRow(fields[0], terms);
      var rest := QueryOf(fields[1..], terms);
      assert QueryOf(fields, terms) == row + rest;
      forall f, t ensures IContainsLookup(f, t) in row + rest <==> f in fields && t in terms {
        if IContainsLookup(f, t) in row {
          var j :| 0 <= j < |row| && row[j] == IContainsLookup(f, t);
        }
        if f == fields[0] && t in terms {
          var j :| 0 <= j < |terms| && terms[j] == t;
          assert row[j] == IContainsLookup(f, t);
        }
        assert fields == [fields[0]] + fields[1..];
      }
    }
  }

  /** Lines building `query`: for each field, for each term of `q.split(' ')`,
      OR one more lookup onto the query. */
  method BuildQuery(fields: seq<string>, q: string) returns (query: seq<Lookup>)
    ensures query == QueryOf(fields, Split(q))
  {
    query := [];
    var terms := Split(q);
    var i := 0;
    while i < |fields|
      invariant 0 <= i <= |fields|
      invariant query == QueryOf(fields[..i], terms)
    {
      query := AddRow(query, fields[i], terms);
      QueryOfStep(fields, i, terms);
      i := i + 1;
    }
    assert fields[..i] == fields;
  }

  /** The inner loop: one lookup per term for one field, in term order. */
  method AddRow(query: seq<Lookup>, field: string, terms: seq<string>) returns (query': seq<Lookup>)
    ensures query' == query + FieldRow(field, terms)
  {
    query' := query;
    var j := 0;
    while j < |terms|
      invariant 0 <= j <= |terms|
      invariant query' == query + FieldRow(field, terms[..j])
    {
      assert FieldRow(field, terms[..j + 1]) == FieldRow(field, terms[..j]) + [IContainsLookup(field, terms[j])];
      query' := query' + [IContainsLookup(field, terms[j])];
      j := j + 1;
    }
    assert terms[..j] == terms;
  }

  /** The outer loop's step: one more field appends its row. */
  lemma QueryOfStep(fields: seq<string>, i: int, terms: seq<string>)
    requires 0 <= i < |fields|
    ensures QueryOf(fields[..i + 1], terms) == QueryOf(fields[..i], terms) + FieldRow(fields[i], terms)
  {
    assert fields[..i + 1] == fields[..i] + [fields[i]];
    QueryOfAppend(fields[..i], fields[i], terms);
  }

  // ---------------------------------------------------------------------
  // Filtering

  /** Some lookup of the disjunction holds. */
  predicate AnyHolds(rec: Record, query: seq<Lookup>) {
    |query| > 0 && (LookupHolds(rec, query[0]) || AnyHolds(rec, query[1..]))
  }

  lemma {:induction false} AnyHoldsIff(rec: Record, query: seq<Lookup>)
    ensures AnyHolds(rec, query) <==> exists l :: l in query && LookupHolds(rec, l)
    decreases |query|
  {
    if |query| > 0 {
      AnyHoldsIff(rec, query[1..]);
      assert query == [query[0]] + query[1..];
    }
  }

  /** `model.objects.filter(query)` keeps a record. An empty `Q()` (no search
      fields) filters nothing out. */
  predicate Selected(rec: Record, fields: seq<string>, q: string)
    ensures |fields| == 0 ==> Selected(rec, fields, q)
    ensures |fields| > 0 ==> (Selected(rec, fields, q) <==>
              exists l :: l in QueryOf(fields, Split(q)) && LookupHolds(rec, l))
  {
    var query := QueryOf(fields, Split(q));
    AnyHoldsIff(rec, query);
    |query| == 0 || AnyHolds(rec, query)
  }

  /** A record is selected iff SOME search field and SOME term of the split
      query match: an OR over all pairs, never an AND. */
  lemma SelectedIff(rec: Record, fields: seq<string>, q: string)
    requires |fields| > 0
    ensures Selected(rec, fields, q) <==>
              exists f, t :: f in fields && t in Split(q) && LookupHolds(rec, IContainsLookup(f, t))
  {
    var terms := Split(q);
    var query := QueryOf(fields, terms);
    QueryOfLength(fields, terms);
    QueryOfMembers(fields, terms);
    AnyHoldsIff(rec, query);
    assert |query| > 0;
    if Selected(rec, fields, q) {
      var l :| l in query && LookupHolds(rec, l);
      assert IContainsLookup(l.field, l.term) == l;
    }
  }

  /** The empty query is the single empty term, which every stored value
      contains: a record with a value for some search field is selected. */
  lemma EmptyQuerySelects(rec: Record, fields: seq<string>, f: string)
    requires f in fields && f in rec
    ensures Selected(rec, fields, "")
  {
    SplitEmpty();
    EmptyTermMatches(rec[f]);
    SelectedIff(rec, fields, "");
    assert LookupHolds(rec, IContainsLookup(f, ""));
  }

  /** Two consecutive spaces in the query likewise select such a record. */
  lemma DoubleSpaceSelects(rec: Record, fields: seq<string>, f: string, a: string, b: string)
    requires f in fields && f in rec
    ensures Selected(rec, fields, a + [Space, Space] + b)
  {
    var q := a + [Space, Space] + b;
    DoubleSpaceGivesEmptyTerm(a, b);
    var k :| 1 <= k < |Split(q)| && Split(q)[k] == "";
    EmptyTermMatches(rec[f]);
    SelectedIff(rec, fields, q);
    assert LookupHolds(rec, IContainsLookup(f, Split(q)[k]));
  }

  /** The records `filter(query)` keeps, in stored order. */
  function Filter(objects: seq<Record>, fields: seq<string>, q: string): (r: seq<Record>)
    ensures |r| <= |objects|
    ensures forall x :: x in r <==> x in objects && Selected(x, fields, q)
  {
    if |objects| == 0 then []
    else
      var rest := Filter(objects[1..], fields, q);
      assert forall x :: x in objects <==> x == objects[0] || x in objects[1..];
      if Selected(objects[0], fields, q) then [objects[0]] + rest else rest
  }

  /** Filtering keeps the stored order: it distributes over concatenation. */
  lemma {:induction false} FilterAppend(a: seq<Record>, b: seq<Record>, fields: seq<string>, q: string)
    ensures Filter(a + b, fields, q) == Filter(a, fields, q) + Filter(b, fields, q)
    decreases |a|
  {
    if |a| > 0 {
      assert (a + b)[1..] == a[1..] + b;
      FilterAppend(a[1..], b, fields, q);
    } else {
      assert a + b == b;
    }
  }

  /** When every record is selected nothing is dropped and nothing moves. */
  lemma {:induction false} FilterKeepsAll(objects: seq<Record>, fields: seq<string>, q: string)
    requires forall i :: 0 <= i < |objects| ==> Selected(objects[i], fields, q)
    ensures Filter(objects, fields, q) == objects
    decreases |objects|
  {
    if |objects| > 0 {
      FilterKeepsAll(objects[1..], fields, q);
      assert [objects[0]] + objects[1..] == objects;
    }
  }

  // ---------------------------------------------------------------------
  // Pagination

  function Min(a: int, b: int): int { if a <= b then a else b }

  /** `s[lo:hi]` on a query set with non-negative bounds: both bounds are
      clamped to the length, and a start past the stop gives nothing. */
  function Slice<T>(s: seq<T>, lo: int, hi: int): (r: seq<T>)
    requires 0 <= lo && 0 <= hi
    ensures lo <= hi && lo <= |s| ==> |r| == Min(hi, |s|) - lo
    ensures hi <= lo || |s| <= lo ==> r == []
    ensures forall i :: 0 <= i < |r| ==> lo + i < |s| && r[i] == s[lo + i]
  {
    var a := Min(lo, |s|);
    var b := Min(hi, |s|);
    if a <= b then s[a..b] else []
  }

  /** `slice_start = (page - 1) * items_per_page` */
  function SliceStart(page: int, perPage: int): int { (page - 1) * perPage }

  /** `slice_end = (page * items_per_page) + 1` */
  function SliceEnd(page: int, perPage: int): int { page * perPage + 1 }

  /** The slice always spans one record more than a page, and for a page
      number of at least 1 and a non-negative page size it starts at or past 0. */
  lemma SliceBounds(page: int, perPage: int)
    ensures SliceEnd(page, perPage) == SliceStart(page, perPage) + perPage + 1
    ensures page >= 1 && perPage >= 0 ==> SliceStart(page, perPage) >= 0
    ensures SliceStart(page + 1, perPage) == SliceStart(page, perPage) + perPage
  {
  }

  /** What `search` returns: `{'results': ..., 'has_more': ...}`. */
  datatype Page = Page(results: seq<Record>, hasMore: bool)

  /** The page cut out of the matched records by the slice `[start:end]`. */
  function Paginate(matched: seq<Record>, start: int, end: int, perPage: int): (p: Page)
    requires 0 <= start && 0 <= end && end == start + perPage + 1
    ensures p.hasMore <==> |p.results| > perPage
    ensures perPage >= 0 ==> |p.results| <= perPage + 1
    ensures perPage >= 0 && start + perPage < |matched| ==> |p.results| == perPage + 1
    ensures perPage >= 0 && start <= |matched| ==> |p.results| == Min(end, |matched|) - start
    ensures |matched| <= start ==> p.results == []
    ensures perPage >= 0 ==> (p.hasMore <==> start + perPage < |matched|)
    ensures forall i :: 0 <= i < |p.results| ==> start + i < |matched| && p.results[i] == matched[start + i]
  {
    var results := Slice(matched, start, end);
    Page(results, |results| > perPage)
  }

  /** `ModelItemType.search(q, page=page, items_per_page=perPage)` over the
      model's stored records, as written: the slice ends one record past the
      page and is returned untrimmed. */
  function Search(objects: seq<Record>, fields: seq<string>, q: string, page: int, perPage: int): (r: Result<Page>)
    ensures r.Ok? <==> SliceStart(page, perPage) >= 0 && SliceEnd(page, perPage) >= 0
    ensures page >= 1 && perPage >= 0 ==> r.Ok?
    ensures r.Err? ==> r.error == NegativeIndexing
    ensures r.Ok? ==> (r.value.hasMore <==> |r.value.results| > perPage)
    ensures r.Ok? && perPage >= 0 ==> |r.value.results| <= perPage + 1
    ensures r.Ok? && perPage >= 0 && r.value.hasMore ==> |r.value.results| == perPage + 1
    ensures r.Ok? ==> forall i :: 0 <= i < |r.value.results| ==>
              SliceStart(page, perPage) + i < |Filter(objects, fields, q)|
              && r.value.results[i] == Filter(objects, fields, q)[SliceStart(page, perPage) + i]
    ensures r.Ok? ==> r.value.results == Slice(Filter(objects, fields, q), SliceStart(page, perPage), SliceEnd(page, perPage))
    ensures r.Ok? && perPage >= 0 && SliceStart(page, perPage) <= |Filter(objects, fields, q)| ==>
              |r.value.results| == Min(SliceEnd(page, perPage), |Filter(objects, fields, q)|) - SliceStart(page, perPage)
    ensures r.Ok? && perPage >= 0 ==>
              (r.value.hasMore <==> SliceStart(page, perPage) + perPage < |Filter(objects, fields, q)|)
  {
    var start := SliceStart(page, perPage);
    var end := SliceEnd(page, perPage);
    SliceBounds(page, perPage);
    if start < 0 || end < 0 then Err(NegativeIndexing)
    else Ok(Paginate(Filter(objects, fields, q), start, end, perPage))
  }

  /** Every returned record is a stored record the query selects. */
  lemma SearchResultsSelected(objects: seq<Record>, fields: seq<string>, q: string, page: int, perPage: int)
    requires Search(objects, fields, q, page, perPage).Ok?
    ensures forall x :: x in Search(objects, fields, q, page, perPage).value.results ==>
              x in objects && Selected(x, fields, q)
  {
  }

  /** The extra record fetched past a full page is the first record of the
      next page. */
  lemma OverFetchIsNextPageHead(objects: seq<Record>, fields: seq<string>, q: string, page: int, perPage: int)
    requires page >= 1 && perPage >= 0
    requires Search(objects, fields, q, page, perPage).Ok?
    requires Search(objects, fields, q, page, perPage).value.hasMore
    ensures Search(objects, fields, q, page + 1, perPage).Ok?
    ensures |Search(objects, fields, q, page + 1, perPage).value.results| >= 1
    ensures Search(objects, fields, q, page, perPage).value.results[perPage]
         == Search(objects, fields, q, page + 1, perPage).value.results[0]
  {
  }

  /** `has_more` on page p says exactly that page p + 1 is not empty. */
  lemma HasMoreIffNextPageNonEmpty(objects: seq<Record>, fields: seq<string>, q: string, page: int, perPage: int)
    requires page >= 1 && perPage >= 0
    ensures Search(objects, fields, q, page, perPage).Ok? && Search(objects, fields, q, page + 1, perPage).Ok?
    ensures Search(objects, fields, q, page, perPage).value.hasMore
        <==> |Search(objects, fields, q, page + 1, perPage).value.results| > 0
  {
    SliceBounds(page, perPage);
  }

  /** Eleven matches, page 1, ten per page: `has_more` is set and the eleven
      records all come back. */
  lemma ElevenMatchesOnFirstPage(objects: seq<Record>, fields: seq<string>, q: string)
    requires |objects| == 11
    requires forall i :: 0 <= i < |objects| ==> Selected(objects[i], fields, q)
    ensures Search(objects, fields, q, 1, 10).Ok?
    ensures Search(objects, fields, q, 1, 10).value.hasMore
    ensures Search(objects, fields, q, 1, 10).value.results == objects
  {
    FilterKeepsAll(objects, fields, q);
  }

  /** Five stored records, the empty query, ten per page: all five, no more. */
  lemma EmptyQueryFirstPage(objects: seq<Record>, fields: seq<string>)
    requires |objects| == 5 && |fields| > 0
    requires forall i :: 0 <= i < |objects| ==> fields[0] in objects[i]
    ensures Search(objects, fields, "", 1, 10) == Ok(Page(objects, false))
  {
    forall i | 0 <= i < |objects| ensures Selected(objects[i], fields, "") {
      EmptyQuerySelects(objects[i], fields, fields[0]);
    }
    FilterKeepsAll(objects, fields, "");
    assert objects[0..5] == objects;
  }
}

=== FILE: ordered_map.dfy ===
/** A Python `dict` keyed by strings: a finite map whose iteration order is the order in which
    keys were first inserted. Overwriting an existing key keeps its place. */
module OrderedMap {
  import opened Outcomes

  datatype OMap<V> = OMap(keys: seq<string>, entries: map<string, V>)

  /** Keys are listed once each, and exactly the keys of `entries` are listed. */
  ghost predicate Valid<V>(m: OMap<V>) {
    && (forall i, j :: 0 <= i < j < |m.keys| ==> m.keys[i] != m.keys[j])
    && (forall k :: k in m.entries <==> k in m.keys)
  }

  function Empty<V>(): (m: OMap<V>)
    ensures Valid(m)
    ensures forall k :: Get(m, k) == None
  {
    OMap([], map[])
  }

  /** `d.get(k)` */
  function Get<V>(m: OMap<V>, k: string): Option<V> {
    if k in m.entries then Some(m.entries[k]) else None
  }

  /** `len(d)` */
  function Size<V>(m: OMap<V>): nat {
    |m.keys|
  }

  /** `list(d.values())`, in iteration order. */
  function Values<V>(m: OMap<V>): (vs: seq<V>)
    requires Valid(m)
    ensures |vs| == Size(m)
    ensures forall i :: 0 <= i < |vs| ==> Get(m, m.keys[i]) == Some(vs[i])
  {
    seq(|m.keys|, i requires 0 <= i < |m.keys| && Valid(m) => m.entries[m.keys[i]])
  }

  /** Position of a listed key. */
  function IndexOf<V>(m: OMap<V>, k: string): (i: nat)
    requires k in m.keys
    ensures i < |m.keys| && m.keys[i] == k
    decreases |m.keys|
  {
    if m.keys[0] == k then 0 else 1 + IndexOf(OMap(m.keys[1..], m.entries), k)
  }

  /** `d[k] = v`: insert, or overwrite in place; no error on a duplicate key. */
  function Put<V>(m: OMap<V>, k: string, v: V): (m': OMap<V>)
    requires Valid(m)
    ensures Valid(m')
    ensures Get(m', k) == Some(v)
    ensures forall k' :: k' != k ==> Get(m', k') == Get(m, k')
    ensures Get(m, k).Some? ==> Size(m') == Size(m)
    ensures Get(m, k).None? ==> Size(m') == Size(m) + 1
  {
    if k in m.entries then OMap(m.keys, m.entries[k := v])
    else OMap(m.keys + [k], m.entries[k := v])
  }

  /** Iteration order after `d[k] = v`: a new key goes last, an existing key
      keeps its position and only its value changes. */
  lemma PutValues<V>(m: OMap<V>, k: string, v: V)
    requires Valid(m)
    ensures k in m.entries ==> Values(Put(m, k, v)) == Values(m)[IndexOf(m, k) := v]
    ensures k !in m.entries ==> Values(Put(m, k, v)) == Values(m) + [v]
  {
    var m' := Put(m, k, v);
    var before, after := Values(m), Values(m');
    if k in m.entries {
      var p := IndexOf(m, k);
      var expected := before[p := v];
      assert |after| == |expected|;
      forall i | 0 <= i < |after| ensures after[i] == expected[i] {
        assert Get(m', m'.keys[i]) == Some(after[i]);
        if i != p {
          assert m.keys[i] != k;
          assert Get(m, m.keys[i]) == Some(before[i]);
        }
      }
    } else {
      var expected := before + [v];
      assert |after| == |expected|;
      forall i | 0 <= i < |after| ensures after[i] == expected[i] {
        assert Get(m', m'.keys[i]) == Some(after[i]);
        if i < |m.keys| {
          assert m'.keys[i] == m.keys[i] && m.keys[i] in m.entries;
          assert Get(m, m.keys[i]) == Some(before[i]);
        }
      }
    }
  }

  /** The map without the key listed last. */
  function DropLast<V>(m: OMap<V>): (m': OMap<V>)
    requires Valid(m) && |m.keys| > 0
    ensures Valid(m')
    ensures |m'.keys| == |m.keys| - 1
    ensures m.entries.Keys == m'.entries.Keys + {m.keys[|m.keys| - 1]}
    ensures m.keys[|m.keys| - 1] !in m'.entries
  {
    DropLastValid(m);
    OMap(m.keys[..|m.keys| - 1], m.entries - {m.keys[|m.keys| - 1]})
  }

  lemma DropLastValid<V>(m: OMap<V>)
    requires Valid(m) && |m.keys| > 0
    ensures Valid(OMap(m.keys[..|m.keys| - 1], m.entries - {m.keys[|m.keys| - 1]}))
  {
    var n := |m.keys| - 1;
    var ks, es := m.keys[..n], m.entries - {m.keys[n]};
    forall i, j | 0 <= i < j < |ks| ensures ks[i] != ks[j] {
      assert ks[i] == m.keys[i] && ks[j] == m.keys[j];
    }
    forall k ensures k in es <==> k in ks {
      if k in ks {
        var i :| 0 <= i < n && ks[i] == k;
        assert m.keys[i] == k;
      }
      if k in es {
        var i :| 0 <= i < |m.keys| && m.keys[i] == k;
        assert ks[i] == k;
      }
    }
  }

  /** The number of entries of the map is the number of listed keys. */
  lemma {:induction false} SizeIsEntryCount<V>(m: OMap<V>)
    requires Valid(m)
    ensures |m.entries| == Size(m)
    decreases |m.keys|
  {
    if |m.keys| == 0 {
      assert m.entries.Keys == {};
    } else {
      SizeIsEntryCount(DropLast(m));
    }
  }
}

=== FILE: outcomes.dfy ===
/** Optional attributes, results that may carry a Python exception, and the
    "first attribute that is present" fallback chain shared by every accessor
    of the item and item-type contracts. */
module Outcomes {

  /** An attribute that an object may or may not have (`hasattr`). */
  datatype Option<+T> = None | Some(value: T)

  /** The exceptions the modelled code can raise. */
  datatype Exception =
    | NotImplementedError(message: string)
    | AttributeError(attribute: string)
    | TypeError(message: string)
    /** Django query sets refuse a slice with a negative bound. */
    | NegativeIndexing

  /** Either the value a Python call returns or the exception it raises. */
  datatype Result<+T> = Ok(value: T) | Err(error: Exception)

  /** The first attribute of `chain` that is present, or `default` when none is. */
  function FirstPresent<T>(chain: seq<Option<T>>, default: T): (r: T)
    ensures (forall i :: 0 <= i < |chain| ==> chain[i].None?) ==> r == default
    ensures forall i :: (0 <= i < |chain| && chain[i].Some?
              && (forall j :: 0 <= j < i ==> chain[j].None?)) ==> r == chain[i].value
  {
    if |chain| == 0 then default
    else if chain[0].Some? then chain[0].value
    else FirstPresent(chain[1..], default)
  }
}

=== FILE: registry.dfy ===
/** The process-wide catalogue of item types, keyed by identifier, and the
    aggregate search that asks every registered type in turn and flattens
    what they return into one list. */
module Registry {
  import opened Outcomes
  import OrderedMap
  import Items
  import ModelSearch
  import ItemTypes

  /** `Registry._registry`, a dict from identifier to item type. */
  datatype Registry = Registry(types: OrderedMap.OMap<ItemTypes.ItemType>)

  ghost predicate Valid(reg: Registry) {
    OrderedMap.Valid(reg.types)
  }

  /** The registry at process start. */
  function Empty(): (reg: Registry)
    ensures Valid(reg)
    ensures forall id :: Lookup(reg, id) == None
  {
    Registry(OrderedMap.Empty())
  }

  /** `_registry.get(id)`: a registered identifier is one the registry
      iterates over. */
  function Lookup(reg: Registry, id: string): (r: Option<ItemTypes.ItemType>)
    ensures Valid(reg) ==> (r.Some? <==> id in reg.types.keys)
  {
    OrderedMap.Get(reg.types, id)
  }

  /** The registered item types, in the registry's iteration order. */
  function Providers(reg: Registry): seq<ItemTypes.ItemType>
    requires Valid(reg)
  {
    OrderedMap.Values(reg.types)
  }

  /** `register(item_type)`: store the type under its identifier, silently
      replacing any type already stored there. Fails only when the type
      cannot produce an identifier. */
  function Register(reg: Registry, t: ItemTypes.ItemType): (r: Result<Registry>)
    requires Valid(reg)
    ensures r.Ok? <==> ItemTypes.GetIdentifier(t).Ok?
    ensures r.Err? ==> r.error == ItemTypes.GetIdentifier(t).error
    ensures r.Ok? ==> Valid(r.value)
    ensures r.Ok? ==> Lookup(r.value, ItemTypes.GetIdentifier(t).value) == Some(t)
    ensures r.Ok? ==> forall id :: id != ItemTypes.GetIdentifier(t).value ==> Lookup(r.value, id) == Lookup(reg, id)
  {
    match ItemTypes.GetIdentifier(t)
    case Err(e) => Err(e)
    case Ok(id) => Ok(Registry(OrderedMap.Put(reg.types, id, t)))
  }

  /** `register(item_type)` as written, keyed by the identifier naming the
      model's metaclass. */
  function RegisterAsWritten(reg: Registry, t: ItemTypes.ItemType): (r: Result<Registry>)
    requires Valid(reg)
    ensures r.Ok? <==> ItemTypes.GetIdentifierAsWritten(t).Ok?
    ensures r.Err? ==> r.error == ItemTypes.GetIdentifierAsWritten(t).error
    ensures r.Ok? ==> Valid(r.value)
    ensures r.Ok? ==> Lookup(r.value, ItemTypes.GetIdentifierAsWritten(t).value) == Some(t)
    ensures r.Ok? ==> Size(r.value) == Size(reg) + (if Lookup(reg, ItemTypes.GetIdentifierAsWritten(t).value).Some? then 0 else 1)
    ensures r.Ok? ==> forall id :: id != ItemTypes.GetIdentifierAsWritten(t).value ==> Lookup(r.value, id) == Lookup(reg, id)
  {
    match ItemTypes.GetIdentifierAsWritten(t)
    case Err(e) => Err(e)
    case Ok(id) => Ok(Registry(OrderedMap.Put(reg.types, id, t)))
  }

  /** Two model-backed types whose models live in the same module: as
      written the second registration replaces the first, leaving one entry
      for both; keyed by the model's own name both stay registered. */
  lemma SameModuleModelsCollide(reg: Registry, t1: ItemTypes.ItemType, t2: ItemTypes.ItemType)
    requires Valid(reg)
    requires t1.impl.ModelBacked? && t1.impl.model.Some?
    requires t2.impl.ModelBacked? && t2.impl.model.Some?
    requires t1.impl.model.value.modulePath == t2.impl.model.value.modulePath
    requires t1.impl.model.value.metaclassName == t2.impl.model.value.metaclassName
    requires t1.impl.model.value.className != t2.impl.model.value.className
    ensures RegisterAsWritten(reg, t1).Ok? && RegisterAsWritten(RegisterAsWritten(reg, t1).value, t2).Ok?
    ensures var once := RegisterAsWritten(reg, t1).value;
            var twice := RegisterAsWritten(once, t2).value;
            && Lookup(twice, ItemTypes.GetIdentifierAsWritten(t1).value) == Some(t2)
            && Size(twice) == Size(once)
    ensures Register(reg, t1).Ok? && Register(Register(reg, t1).value, t2).Ok?
    ensures var twice := Register(Register(reg, t1).value, t2).value;
            && Lookup(twice, ItemTypes.GetIdentifier(t1).value) == Some(t1)
            && Lookup(twice, ItemTypes.GetIdentifier(t2).value) == Some(t2)
  {
    ItemTypes.SameModuleIdentifiers(t1, t2);
  }

  /** `register` never consults `get_name`: two types sharing a `name` but
      not an identifier both stay registered. */
  lemma SameNameBothRegistered(reg: Registry, t1: ItemTypes.ItemType, t2: ItemTypes.ItemType)
    requires Valid(reg)
    requires t1.name == t2.name
    requires ItemTypes.GetIdentifier(t1).Ok? && ItemTypes.GetIdentifier(t2).Ok?
    requires ItemTypes.GetIdentifier(t1).value != ItemTypes.GetIdentifier(t2).value
    ensures Register(reg, t1).Ok? && Register(Register(reg, t1).value, t2).Ok?
    ensures var twice := Register(Register(reg, t1).value, t2).value;
            && Lookup(twice, ItemTypes.GetIdentifier(t1).value) == Some(t1)
            && Lookup(twice, ItemTypes.GetIdentifier(t2).value) == Some(t2)
  {
  }

  /** Registering a second type under an identifier already taken keeps one
      entry for it, now the second type: the number of registered types does
      not change. */
  lemma RegisterSameIdentifierTwice(reg: Registry, t1: ItemTypes.ItemType, t2: ItemTypes.ItemType)
    requires Valid(reg)
    requires ItemTypes.GetIdentifier(t1).Ok? && ItemTypes.GetIdentifier(t1) == ItemTypes.GetIdentifier(t2)
    ensures Register(reg, t1).Ok? && Valid(Register(reg, t1).value)
    ensures var once := Register(reg, t1).value;
            var twice := Register(once, t2);
            && twice.Ok?
            && Lookup(twice.value, ItemTypes.GetIdentifier(t1).value) == Some(t2)
            && |twice.value.types.entries| == |once.types.entries|
            && Providers(twice.value) == Providers(once)[OrderedMap.IndexOf(once.types, ItemTypes.GetIdentifier(t1).value) := t2]
  {
    var id := ItemTypes.GetIdentifier(t1).value;
    var once := Register(reg, t1).value;
    var twice := Register(once, t2).value;
    assert id in once.types.entries;
    OrderedMap.PutValues(once.types, id, t2);
    OrderedMap.SizeIsEntryCount(once.types);
    OrderedMap.SizeIsEntryCount(twice.types);
  }

  /** A type under a new identifier is searched after every type already
      registered. */
  lemma RegisterNewGoesLast(reg: Registry, t: ItemTypes.ItemType)
    requires Valid(reg)
    requires ItemTypes.GetIdentifier(t).Ok? && Lookup(reg, ItemTypes.GetIdentifier(t).value).None?
    ensures Register(reg, t).Ok? && Valid(Register(reg, t).value)
    ensures Providers(Register(reg, t).value) == Providers(reg) + [t]
  {
  }

  // ---------------------------------------------------------------------
  // Aggregate search

  /** The objects the aggregate search collects: items from a provider that
      returns a list, stored records from a model-backed provider, and, in
      the code as written, the keys of the dictionary a model-backed
      provider returns. */
  datatype Found =
    | FoundItem(item: Items.Item)
    | FoundRecord(record: ModelSearch.Record)
    | FoundKey(key: string)

  /** `search(q, limit=100)` */
  const DefaultLimit := 100

  /** What iterating one provider's answer yields, iterating the results it
      carries. */
  function Hits(out: ItemTypes.SearchOutput): (hs: seq<Found>)
    ensures out.ItemList? ==> |hs| == |out.items| && forall i :: 0 <= i < |hs| ==> hs[i] == FoundItem(out.items[i])
    ensures out.ResultDict? ==> (|hs| == |out.page.results|
              && forall i :: 0 <= i < |hs| ==> hs[i] == FoundRecord(out.page.results[i]))
  {
    match out
    case ItemList(items) => seq(|items|, i requires 0 <= i < |items| => FoundItem(items[i]))
    case ResultDict(p) => seq(|p.results|, i requires 0 <= i < |p.results| => FoundRecord(p.results[i]))
  }

  /** What `for item in item_type.search(...)` yields as written: iterating
      a dict yields its keys, in insertion order. */
  function HitsAsWritten(out: ItemTypes.SearchOutput): (hs: seq<Found>)
    ensures out.ItemList? ==> hs == Hits(out)
    ensures out.ResultDict? ==> hs == [FoundKey("results"), FoundKey("has_more")]
  {
    match out
    case ItemList(_) => Hits(out)
    case ResultDict(_) => [FoundKey("results"), FoundKey("has_more")]
  }

  /** One provider asked as the aggregate search asks it: page 1, `limit`
      items per page, no user. */
  function Ask(t: ItemTypes.ItemType, q: string, limit: int): (r: Result<ItemTypes.SearchOutput>)
    ensures t.impl.Custom? ==> (r.Ok? <==> t.impl.search.Some?)
    ensures t.impl.ModelBacked? && limit >= 0 ==> (r.Ok? <==> t.impl.model.Some?)
    ensures r.Ok? ==> (r.value.ResultDict? <==> t.impl.ModelBacked?)
    ensures t.impl.ModelBacked? && t.impl.model.Some? && limit >= 0 ==>
              (r.Ok? && r.value.ResultDict?
               && r.value.page.results == ModelSearch.Slice(ModelSearch.Filter(t.impl.model.value.objects, t.impl.searchFields, q), 0, limit + 1))
  {
    ItemTypes.Search(t, q, 1, limit)
  }

  /** Every provider's answer, in provider order. */
  function Answers(ts: seq<ItemTypes.ItemType>, q: string, limit: int): (outs: seq<Result<ItemTypes.SearchOutput>>)
    ensures |outs| == |ts|
    ensures forall i :: 0 <= i < |ts| ==> outs[i] == Ask(ts[i], q, limit)
  {
    seq(|ts|, i requires 0 <= i < |ts| => Ask(ts[i], q, limit))
  }

  /** What the loop over providers collects from their answers, `iterate`
      saying what iterating one answer yields. The first answer that is an
      exception aborts the whole search. */
  function Collect(outs: seq<Result<ItemTypes.SearchOutput>>, iterate: ItemTypes.SearchOutput -> seq<Found>): (r: Result<seq<Found>>)
    ensures r.Ok? <==> forall i :: 0 <= i < |outs| ==> outs[i].Ok?
    ensures r.Err? ==> exists i :: (0 <= i < |outs| && outs[i] == Err(r.error)
              && forall j :: 0 <= j < i ==> outs[j].Ok?)
    decreases |outs|
  {
    if |outs| == 0 then Ok([])
    else
      match outs[0]
      case Err(e) => Err(e)
      case Ok(out) =>
        match Collect(outs[1..], iterate)
        case Err(e) => Err(e)
        case Ok(rest) => Ok(iterate(out) + rest)
  }

  /** `registry.search(q, limit)`: the providers in iteration order, each
      asked once, their results flattened into one list. */
  function Search(reg: Registry, q: string, limit: int): (r: Result<seq<Found>>)
    requires Valid(reg)
    ensures r.Ok? <==> forall i :: 0 <= i < Size(reg) ==> Ask(Providers(reg)[i], q, limit).Ok?
    ensures r.Err? ==> exists i :: (0 <= i < Size(reg) && Ask(Providers(reg)[i], q, limit) == Err(r.error)
              && forall j :: 0 <= j < i ==> Ask(Providers(reg)[j], q, limit).Ok?)
    ensures r.Ok? ==> |r.value| == TotalHits(Answers(Providers(reg), q, limit), Hits)
  {
    SearchOutcome(Providers(reg), q, limit);
    Collect(Answers(Providers(reg), q, limit), Hits)
  }

  /** What collecting every provider's answer gives, stated in terms of the
      providers: an exception is the first raising provider's, and a
      result is as long as all answers together. */
  lemma SearchOutcome(ts: seq<ItemTypes.ItemType>, q: string, limit: int)
    ensures var r := Collect(Answers(ts, q, limit), Hits);
            && (r.Err? ==> exists i :: (0 <= i < |ts| && Ask(ts[i], q, limit) == Err(r.error)
                 && forall j :: 0 <= j < i ==> Ask(ts[j], q, limit).Ok?))
            && (r.Ok? ==> |r.value| == TotalHits(Answers(ts, q, limit), Hits))
  {
    var outs := Answers(ts, q, limit);
    var r := Collect(outs, Hits);
    if r.Err? {
      var i :| 0 <= i < |outs| && outs[i] == Err(r.error) && forall j :: 0 <= j < i ==> outs[j].Ok?;
      assert Ask(ts[i], q, limit) == Err(r.error);
      assert forall j :: 0 <= j < i ==> Ask(ts[j], q, limit).Ok?;
    } else {
      CollectLength(outs, Hits);
    }
  }

  /** `registry.search(q, limit)` as written, iterating each answer itself. */
  function SearchAsWritten(reg: Registry, q: string, limit: int): (r: Result<seq<Found>>)
    requires Valid(reg)
    ensures r.Ok? <==> Search(reg, q, limit).Ok?
  {
    Collect(Answers(Providers(reg), q, limit), HitsAsWritten)
  }

  /** Collecting two runs of answers is collecting the first run followed by
      the second. */
  lemma {:induction false} CollectAppend(a: seq<Result<ItemTypes.SearchOutput>>, b: seq<Result<ItemTypes.SearchOutput>>, iterate: ItemTypes.SearchOutput -> seq<Found>)
    requires Collect(a, iterate).Ok? && Collect(b, iterate).Ok?
    ensures Collect(a + b, iterate) == Ok(Collect(a, iterate).value + Collect(b, iterate).value)
    decreases |a|
  {
    if |a| == 0 {
      assert a + b == b;
      assert Collect(a, iterate) == Ok([]);
      assert [] + Collect(b, iterate).value == Collect(b, iterate).value;
    } else {
      assert (a + b)[0] == a[0];
      assert (a + b)[1..] == a[1..] + b;
      CollectAppend(a[1..], b, iterate);
      var head := iterate(a[0].value);
      var x, y := Collect(a[1..], iterate).value, Collect(b, iterate).value;
      assert Collect(a, iterate) == Ok(head + x);
      assert Collect(a + b, iterate) == Ok(head + (x + y));
      assert head + (x + y) == (head + x) + y;
    }
  }

  /** A single answer contributes exactly what iterating it yields. */
  lemma CollectSingle(out: ItemTypes.SearchOutput, iterate: ItemTypes.SearchOutput -> seq<Found>)
    ensures Collect([Ok(out)], iterate) == Ok(iterate(out))
  {
    assert [Ok(out)][1..] == [];
    assert iterate(out) + [] == iterate(out);
  }

  /** One more answer that is a result extends the collection by what
      iterating it yields. */
  lemma CollectStep(outs: seq<Result<ItemTypes.SearchOutput>>, i: int, iterate: ItemTypes.SearchOutput -> seq<Found>)
    requires 0 <= i < |outs| && outs[i].Ok?
    requires Collect(outs[..i], iterate).Ok?
    ensures Collect(outs[..i + 1], iterate) == Ok(Collect(outs[..i], iterate).value + iterate(outs[i].value))
  {
    CollectSingle(outs[i].value, iterate);
    assert outs[..i + 1] == outs[..i] + [Ok(outs[i].value)];
    CollectAppend(outs[..i], [Ok(outs[i].value)], iterate);
  }

  /** When the answers before position `i` are results and the one at `i`
      is an exception, the whole search raises that exception. */
  lemma {:induction false} CollectFailure(outs: seq<Result<ItemTypes.SearchOutput>>, i: int, iterate: ItemTypes.SearchOutput -> seq<Found>)
    requires 0 <= i < |outs|
    requires Collect(outs[..i], iterate).Ok?
    requires outs[i].Err?
    ensures Collect(outs, iterate) == Err(outs[i].error)
    decreases i
  {
    if i > 0 {
      assert outs[..i][0] == outs[0];
      assert outs[1..][..i - 1] == outs[..i][1..];
      CollectFailure(outs[1..], i - 1, iterate);
    }
  }

  /** With nothing registered the aggregate search finds nothing. */
  lemma SearchEmpty(q: string, limit: int)
    ensures Search(Empty(), q, limit) == Ok([])
  {
    assert Providers(Empty()) == [];
  }

  /** Registering a type under a new identifier appends what that type
      answers to what the registry already found; together with
      `SearchEmpty` this pins down the aggregate of any registry built by
      registering types one after another. */
  lemma RegisterThenSearch(reg: Registry, t: ItemTypes.ItemType, q: string, limit: int)
    requires Valid(reg)
    requires ItemTypes.GetIdentifier(t).Ok? && Lookup(reg, ItemTypes.GetIdentifier(t).value).None?
    requires Search(reg, q, limit).Ok? && Ask(t, q, limit).Ok?
    ensures Register(reg, t).Ok? && Valid(Register(reg, t).value)
    ensures Search(Register(reg, t).value, q, limit) == Ok(Search(reg, q, limit).value + Hits(Ask(t, q, limit).value))
  {
    RegisterNewGoesLast(reg, t);
    var ts := Providers(reg);
    var one := [Ok(Ask(t, q, limit).value)];
    AnswersAppend(ts, t, q, limit);
    CollectSingle(Ask(t, q, limit).value, Hits);
    CollectAppend(Answers(ts, q, limit), one, Hits);
  }

  /** Asking one more provider appends its answer. */
  lemma AnswersAppend(ts: seq<ItemTypes.ItemType>, t: ItemTypes.ItemType, q: string, limit: int)
    ensures Answers(ts + [t], q, limit) == Answers(ts, q, limit) + [Ask(t, q, limit)]
  {
  }

  /** The number of objects each answer yields, summed. */
  function TotalHits(outs: seq<Result<ItemTypes.SearchOutput>>, iterate: ItemTypes.SearchOutput -> seq<Found>): nat
    requires forall i :: 0 <= i < |outs| ==> outs[i].Ok?
    decreases |outs|
  {
    if |outs| == 0 then 0 else |iterate(outs[0].value)| + TotalHits(outs[1..], iterate)
  }

  /** The aggregate is neither capped at `limit` nor deduplicated: its length
      is the sum of what each provider yields. */
  lemma {:induction false} CollectLength(outs: seq<Result<ItemTypes.SearchOutput>>, iterate: ItemTypes.SearchOutput -> seq<Found>)
    requires forall i :: 0 <= i < |outs| ==> outs[i].Ok?
    ensures Collect(outs, iterate).Ok?
    ensures |Collect(outs, iterate).value| == TotalHits(outs, iterate)
    decreases |outs|
  {
    if |outs| > 0 {
      CollectLength(outs[1..], iterate);
    }
  }

  /** Every collected object comes from some provider's answer. */
  lemma {:induction false} CollectMembers(outs: seq<Result<ItemTypes.SearchOutput>>, iterate: ItemTypes.SearchOutput -> seq<Found>, x: Found)
    requires Collect(outs, iterate).Ok? && x in Collect(outs, iterate).value
    ensures exists i :: 0 <= i < |outs| && outs[i].Ok? && x in iterate(outs[i].value)
    decreases |outs|
  {
    var rest := Collect(outs[1..], iterate).value;
    if x in iterate(outs[0].value) {
      assert 0 < |outs|;
    } else {
      assert x in rest;
      CollectMembers(outs[1..], iterate, x);
      var i :| 0 <= i < |outs[1..]| && outs[1..][i].Ok? && x in iterate(outs[1..][i].value);
      assert outs[i + 1] == outs[1..][i];
    }
  }

  /** When no answer yields more than `k` objects, the aggregate holds at
      most `k` per provider. */
  lemma {:induction false} CollectBound(outs: seq<Result<ItemTypes.SearchOutput>>, iterate: ItemTypes.SearchOutput -> seq<Found>, k: nat)
    requires forall i :: 0 <= i < |outs| ==> outs[i].Ok? && |iterate(outs[i].value)| <= k
    ensures Collect(outs, iterate).Ok?
    ensures |Collect(outs, iterate).value| <= |outs| * k
    decreases |outs|
  {
    if |outs| > 0 {
      CollectBound(outs[1..], iterate, k);
      assert |outs| * k == k + (|outs| - 1) * k;
    }
  }

  /** Two model-backed providers whose models each hold three records the
      query selects give six results for any limit of at least 2; the
      limit bounds each provider, not the total. */
  lemma TwoProvidersOfThree(t1: ItemTypes.ItemType, t2: ItemTypes.ItemType, q: string, limit: int)
    requires limit >= 2
    requires t1.impl.ModelBacked? && t1.impl.model.Some?
    requires t2.impl.ModelBacked? && t2.impl.model.Some?
    requires |ModelSearch.Filter(t1.impl.model.value.objects, t1.impl.searchFields, q)| == 3
    requires |ModelSearch.Filter(t2.impl.model.value.objects, t2.impl.searchFields, q)| == 3
    ensures Collect(Answers([t1, t2], q, limit), Hits).Ok?
    ensures |Collect(Answers([t1, t2], q, limit), Hits).value| == 6
  {
    AnswerCount(t1, q, limit, 3);
    AnswerCount(t2, q, limit, 3);
    CollectTwo(t1, t2, q, limit);
  }

  /** With a limit of 1 the same two providers give four results: each
      answers its first page plus the record fetched past it. */
  lemma TwoProvidersOfThreeLimitOne(t1: ItemTypes.ItemType, t2: ItemTypes.ItemType, q: string)
    requires t1.impl.ModelBacked? && t1.impl.model.Some?
    requires t2.impl.ModelBacked? && t2.impl.model.Some?
    requires |ModelSearch.Filter(t1.impl.model.value.objects, t1.impl.searchFields, q)| == 3
    requires |ModelSearch.Filter(t2.impl.model.value.objects, t2.impl.searchFields, q)| == 3
    ensures Collect(Answers([t1, t2], q, 1), Hits).Ok?
    ensures |Collect(Answers([t1, t2], q, 1), Hits).value| == 4
  {
    AnswerCount(t1, q, 1, 2);
    AnswerCount(t2, q, 1, 2);
    CollectTwo(t1, t2, q, 1);
  }

  /** Two answering providers contribute their hits one after the other. */
  lemma CollectTwo(t1: ItemTypes.ItemType, t2: ItemTypes.ItemType, q: string, limit: int)
    requires Ask(t1, q, limit).Ok? && Ask(t2, q, limit).Ok?
    ensures Collect(Answers([t1, t2], q, limit), Hits)
         == Ok(Hits(Ask(t1, q, limit).value) + Hits(Ask(t2, q, limit).value))
  {
    var a1, a2 := Ask(t1, q, limit).value, Ask(t2, q, limit).value;
    assert Answers([t1, t2], q, limit) == [Ok(a1)] + [Ok(a2)];
    CollectSingle(a1, Hits);
    CollectSingle(a2, Hits);
    CollectAppend([Ok(a1)], [Ok(a2)], Hits);
  }

  /** A provider with a model answers `min(limit + 1, matches)` records. */
  lemma AnswerCount(t: ItemTypes.ItemType, q: string, limit: int, n: nat)
    requires limit >= 0 && t.impl.ModelBacked? && t.impl.model.Some?
    requires n == ModelSearch.Min(limit + 1, |ModelSearch.Filter(t.impl.model.value.objects, t.impl.searchFields, q)|)
    ensures Ask(t, q, limit).Ok? && Ask(t, q, limit).value.ResultDict?
    ensures |Hits(Ask(t, q, limit).value)| == n
  {
  }

  /** A provider that has a model yields at most `limit + 1` records: the
      untrimmed page. */
  lemma ModelProviderBound(t: ItemTypes.ItemType, q: string, limit: int)
    requires limit >= 0 && t.impl.ModelBacked? && t.impl.model.Some?
    ensures Ask(t, q, limit).Ok? && Ask(t, q, limit).value.ResultDict?
    ensures |Hits(Ask(t, q, limit).value)| <= limit + 1
  {
  }

  /** Everything a provider that has a model yields is one of its stored
      records that the query selects. */
  lemma ModelProviderHits(t: ItemTypes.ItemType, q: string, limit: int, x: Found)
    requires limit >= 0 && t.impl.ModelBacked? && t.impl.model.Some?
    requires Ask(t, q, limit).Ok? && x in Hits(Ask(t, q, limit).value)
    ensures x.FoundRecord?
    ensures x.record in t.impl.model.value.objects
    ensures ModelSearch.Selected(x.record, t.impl.searchFields, q)
  {
    var m := t.impl.model.value;
    ModelSearch.SearchResultsSelected(m.objects, t.impl.searchFields, q, 1, limit);
    var hs := Hits(Ask(t, q, limit).value);
    var k :| 0 <= k < |hs| && hs[k] == x;
  }

  /** Over model-backed providers that have models, the aggregate holds at
      most `limit + 1` records per provider, and not `limit` in all. */
  lemma ModelSearchBound(reg: Registry, q: string, limit: int)
    requires Valid(reg) && limit >= 0
    requires forall i :: 0 <= i < |Providers(reg)| ==>
               Providers(reg)[i].impl.ModelBacked? && Providers(reg)[i].impl.model.Some?
    ensures Search(reg, q, limit).Ok?
    ensures |Search(reg, q, limit).value| <= Size(reg) * (limit + 1)
  {
    var ts := Providers(reg);
    var outs := Answers(ts, q, limit);
    forall i | 0 <= i < |outs| ensures outs[i].Ok? && |Hits(outs[i].value)| <= limit + 1 {
      ModelProviderBound(ts[i], q, limit);
    }
    CollectBound(outs, Hits, limit + 1);
  }

  /** Over model-backed providers that have models, the aggregate holds
      stored records only: each is a record of some provider's model that
      this provider's search fields select. */
  lemma ModelSearchRecords(reg: Registry, q: string, limit: int)
    requires Valid(reg) && limit >= 0
    requires forall i :: 0 <= i < |Providers(reg)| ==>
               Providers(reg)[i].impl.ModelBacked? && Providers(reg)[i].impl.model.Some?
    ensures Search(reg, q, limit).Ok?
    ensures forall x :: x in Search(reg, q, limit).value ==>
              x.FoundRecord? && exists i :: (0 <= i < Size(reg)
                && x.record in Providers(reg)[i].impl.model.value.objects
                && ModelSearch.Selected(x.record, Providers(reg)[i].impl.searchFields, q))
  {
    var ts := Providers(reg);
    var outs := Answers(ts, q, limit);
    forall i | 0 <= i < |outs| ensures outs[i].Ok? {
      ModelProviderBound(ts[i], q, limit);
    }
    forall x | x in Search(reg, q, limit).value
      ensures x.FoundRecord? && exists i :: (0 <= i < Size(reg)
                && x.record in ts[i].impl.model.value.objects
                && ModelSearch.Selected(x.record, ts[i].impl.searchFields, q))
    {
      CollectMembers(outs, Hits, x);
      var i :| 0 <= i < |outs| && outs[i].Ok? && x in Hits(outs[i].value);
      ModelProviderHits(ts[i], q, limit, x);
    }
  }

  /** `search(q)` with the default limit: a provider that has a model
      contributes at most 101 records. */
  lemma DefaultLimitPerProvider(t: ItemTypes.ItemType, q: string)
    requires t.impl.ModelBacked? && t.impl.model.Some?
    ensures Ask(t, q, DefaultLimit).Ok?
    ensures |Hits(Ask(t, q, DefaultLimit).value)| <= 101
  {
    ModelProviderBound(t, q, DefaultLimit);
  }

  /** As written, the aggregate over model-backed providers holds no stored
      record at all: only the keys "results" and "has_more", once per
      provider. */
  lemma AsWrittenYieldsKeys(reg: Registry, q: string, limit: int)
    requires Valid(reg) && limit >= 0
    requires forall i :: 0 <= i < |Providers(reg)| ==>
               Providers(reg)[i].impl.ModelBacked? && Providers(reg)[i].impl.model.Some?
    ensures SearchAsWritten(reg, q, limit).Ok?
    ensures forall x :: x in SearchAsWritten(reg, q, limit).value ==> x.FoundKey?
    ensures Size(reg) > 0 ==> FoundKey("results") in SearchAsWritten(reg, q, limit).value
  {
    var ts := Providers(reg);
    var outs := Answers(ts, q, limit);
    forall i | 0 <= i < |outs| ensures outs[i].Ok? && outs[i].value.ResultDict? {
      ModelProviderBound(ts[i], q, limit);
    }
    CollectKeys(outs);
  }

  /** Iterating dictionaries as written collects their keys and nothing
      else. */
  lemma CollectKeys(outs: seq<Result<ItemTypes.SearchOutput>>)
    requires forall i :: 0 <= i < |outs| ==> outs[i].Ok? && outs[i].value.ResultDict?
    ensures Collect(outs, HitsAsWritten).Ok?
    ensures forall x :: x in Collect(outs, HitsAsWritten).value ==> x.FoundKey?
    ensures |outs| > 0 ==> FoundKey("results") in Collect(outs, HitsAsWritten).value
    ensures |outs| > 0 ==> Collect(outs, HitsAsWritten).value[0] == FoundKey("results")
  {
    forall x | x in Collect(outs, HitsAsWritten).value ensures x.FoundKey? {
      CollectMembers(outs, HitsAsWritten, x);
    }
    if |outs| > 0 {
      assert Collect(outs[1..], HitsAsWritten).Ok?;
      assert HitsAsWritten(outs[0].value)[0] == FoundKey("results");
    }
  }

  /** The number of registered types. */
  function Size(reg: Registry): nat {
    OrderedMap.Size(reg.types)
  }

  /** The aggregate search as the loop over providers computes it. */
  method SearchLoop(reg: Registry, q: string, limit: int) returns (r: Result<seq<Found>>)
    requires Valid(reg)
    ensures r == Search(reg, q, limit)
  {
    var ts := Providers(reg);
    ghost var outs := Answers(ts, q, limit);
    var results: seq<Found> := [];
    var i := 0;
    while i < |ts|
      invariant 0 <= i <= |ts|
      invariant Collect(outs[..i], Hits) == Ok(results)
    {
      var out := Ask(ts[i], q, limit);
      assert out == outs[i];
      if out.Err? {
        CollectFailure(outs, i, Hits);
        return Err(out.error);
      }
      CollectStep(outs, i, Hits);
      results := results + Hits(out.value);
      i := i + 1;
    }
    assert outs[..i] == outs;
    return Ok(results);
  }
}

=== FILE: text.dfy ===
/** The string operations the default search relies on: `str.split(' ')`
    and the case-insensitive substring test behind a `field__icontains`
    lookup (ASCII case folding stands in for the database collation). */
module Text {

  const Space: char := ' '

  /** ASCII lower-casing of one character. */
  function LowerChar(c: char): (r: char)
    ensures 'A' <= c <= 'Z' ==> r as int == c as int + 32
    ensures !('A' <= c <= 'Z') ==> r == c
    ensures !('A' <= r <= 'Z')
  {
    if 'A' <= c <= 'Z' then (c as int + 32) as char else c
  }

  function Lower(s: string): (r: string)
    ensures |r| == |s|
    ensures forall i :: 0 <= i < |s| ==> r[i] == LowerChar(s[i])
  {
    seq(|s|, i requires 0 <= i < |s| => LowerChar(s[i]))
  }

  lemma LowerIdempotent(s: string)
    ensures Lower(Lower(s)) == Lower(s)
  {
  }

  // ---------------------------------------------------------------------
  // Substring test

  /** `needle` sits in `hay` starting at offset `i`. */
  predicate OccursAt(needle: string, hay: string, i: int) {
    0 <= i <= |hay| - |needle| && hay[i..i + |needle|] == needle
  }

  /** Reference definition: `needle` occurs in `hay` at some offset. */
  ghost predicate OccursIn(needle: string, hay: string) {
    exists i :: OccursAt(needle, hay, i)
  }

  predicate IsPrefix(p: string, s: string) {
    |p| <= |s| && s[..|p|] == p
  }

  /** Executable substring test: `needle` is a prefix of some suffix of `hay`. */
  predicate Contains(hay: string, needle: string)
    decreases |hay|
  {
    IsPrefix(needle, hay) || (|hay| > 0 && Contains(hay[1..], needle))
  }

  lemma {:induction false} ContainsIffOccurs(hay: string, needle: string)
    ensures Contains(hay, needle) <==> OccursIn(needle, hay)
    decreases |hay|
  {
    if IsPrefix(needle, hay) {
      assert OccursAt(needle, hay, 0);
    } else if |hay| == 0 {
    } else {
      ContainsIffOccurs(hay[1..], needle);
      if Contains(hay[1..], needle) {
        var i :| OccursAt(needle, hay[1..], i);
        assert hay[1..][i..i + |needle|] == hay[i + 1..i + 1 + |needle|];
        assert OccursAt(needle, hay, i + 1);
      }
      if OccursIn(needle, hay) {
        var i :| OccursAt(needle, hay, i);
        assert hay[1..][i - 1..i - 1 + |needle|] == hay[i..i + |needle|];
        assert OccursAt(needle, hay[1..], i - 1);
      }
    }
  }

  /** `field__icontains=term`: `term` occurs in `value`, ignoring ASCII case. */
  predicate IContains(value: string, term: string)
    ensures IContains(value, term) <==> OccursIn(Lower(term), Lower(value))
  {
    ContainsIffOccurs(Lower(value), Lower(term));
    Contains(Lower(value), Lower(term))
  }

  /** The empty term occurs in every value. */
  lemma EmptyTermMatches(value: string)
    ensures IContains(value, "")
  {
  }

  /** Case does not matter on either side. */
  lemma IContainsIgnoresCase(value: string, term: string)
    ensures IContains(value, term) == IContains(Lower(value), term)
    ensures IContains(value, term) == IContains(value, Lower(term))
  {
    LowerIdempotent(value);
    LowerIdempotent(term);
  }

  lemma UpperValueMatchesLowerTerm()
    ensures IContains("FOO", "foo")
  {
  }

  // ---------------------------------------------------------------------
  // str.split(' ')

  /** `s.split(' ')`: the pieces between single spaces, empty pieces kept. */
  function Split(s: string): (r: seq<string>)
    ensures |r| >= 1
    decreases |s|
  {
    if |s| == 0 then [""]
    else
      var rest := Split(s[1..]);
      if s[0] == Space then [""] + rest
      else [[s[0]] + rest[0]] + rest[1..]
  }

  /** `' '.join(parts)` */
  function Join(parts: seq<string>): string
  {
    if |parts| == 0 then ""
    else if |parts| == 1 then parts[0]
    else parts[0] + [Space] + Join(parts[1..])
  }

  ghost predicate NoSpace(s: string) {
    forall i :: 0 <= i < |s| ==> s[i] != Space
  }

  function CountSpaces(s: string): nat {
    if |s| == 0 then 0 else (if s[0] == Space then 1 else 0) + CountSpaces(s[1..])
  }

  /** The pieces hold no space and there is one more piece than spaces. */
  lemma {:induction false} SplitPieces(s: string)
    ensures forall k :: 0 <= k < |Split(s)| ==> NoSpace(Split(s)[k])
    ensures |Split(s)| == CountSpaces(s) + 1
    decreases |s|
  {
    if |s| > 0 {
      SplitPieces(s[1..]);
      var rest := Split(s[1..]);
      if s[0] != Space {
        var head := [s[0]] + rest[0];
        assert NoSpace(rest[0]);
        assert NoSpace(head) by {
          forall i | 0 <= i < |head| ensures head[i] != Space {
            if i > 0 { assert head[i] == rest[0][i - 1]; }
          }
        }
      }
    }
  }

  /** Joining the pieces with single spaces gives back the query. */
  lemma {:induction false} JoinSplit(s: string)
    ensures Join(Split(s)) == s
    decreases |s|
  {
    if |s| > 0 {
      JoinSplit(s[1..]);
      var rest := Split(s[1..]);
      if s[0] == Space {
        assert Join([""] + rest) == "" + [Space] + Join(rest);
        assert s == [s[0]] + s[1..];
      } else {
        var parts := [[s[0]] + rest[0]] + rest[1..];
        if |rest| == 1 {
          assert Join(parts) == [s[0]] + rest[0];
          assert s == [s[0]] + s[1..];
        } else {
          assert parts[1..] == rest[1..];
          assert Join(parts) == [s[0]] + rest[0] + [Space] + Join(rest[1..]);
          assert Join(rest) == rest[0] + [Space] + Join(rest[1..]);
          assert s == [s[0]] + s[1..];
        }
      }
    }
  }

  /** Splitting a join of space-free pieces gives back the pieces. */
  lemma {:induction false} SplitJoin(parts: seq<string>)
    requires |parts| >= 1
    requires forall k :: 0 <= k < |parts| ==> NoSpace(parts[k])
    ensures Split(Join(parts)) == parts
    decreases |parts|, |parts[0]|
  {
    var p := parts[0];
    if |p| == 0 {
      if |parts| > 1 {
        SplitJoin(parts[1..]);
        var s := Join(parts);
        assert s == [Space] + Join(parts[1..]);
        assert s[1..] == Join(parts[1..]);
        assert [""] + parts[1..] == parts;
      }
    } else {
      var parts' := [p[1..]] + parts[1..];
      assert NoSpace(p[1..]) by {
        forall i | 0 <= i < |p[1..]| ensures p[1..][i] != Space {
          assert p[1..][i] == p[i + 1];
        }
      }
      assert forall k :: 0 <= k < |parts'| ==> NoSpace(parts'[k]) by {
        forall k | 0 <= k < |parts'| ensures NoSpace(parts'[k]) {
          if k > 0 { assert parts'[k] == parts[k]; }
        }
      }
      SplitJoin(parts');
      var s := Join(parts);
      assert parts'[1..] == parts[1..];
      if |parts| == 1 {
        assert s == p;
        assert Join(parts') == p[1..];
      } else {
        assert s == p + [Space] + Join(parts[1..]);
        assert Join(parts') == p[1..] + [Space] + Join(parts[1..]);
      }
      assert s == [p[0]] + Join(parts');
      assert s[0] == p[0] && s[1..] == Join(parts');
      assert p[0] != Space;
      var rest := Split(s[1..]);
      assert rest == parts';
      assert [s[0]] + rest[0] == p;
      assert [[s[0]] + rest[0]] + rest[1..] == parts;
    }
  }

  /** The empty query is the single empty term. */
  lemma SplitEmpty()
    ensures Split("") == [""]
  {
  }

  /** Two consecutive spaces put an empty term between them (never the first
      term: that one ends at the first space). */
  lemma {:induction false} DoubleSpaceGivesEmptyTerm(a: string, b: string)
    ensures exists k :: 1 <= k < |Split(a + [Space, Space] + b)| && Split(a + [Space, Space] + b)[k] == ""
    decreases |a|
  {
    var s := a + [Space, Space] + b;
    if |a| == 0 {
      assert s[1..] == [Space] + b;
      assert Split(s[1..]) == [""] + Split(b);
      assert Split(s)[1] == "";
    } else {
      DoubleSpaceGivesEmptyTerm(a[1..], b);
      assert s[1..] == a[1..] + [Space, Space] + b;
      var rest := Split(s[1..]);
      var k :| 1 <= k < |rest| && rest[k] == "";
      if s[0] == Space {
        assert Split(s)[k + 1] == "";
      } else {
        assert Split(s)[k] == "";
      }
    }
  }
}
